=== FILE: README.md ===
# canary-checker core, modelled in Dafny

This project models four parts of canary-checker:

- **The HTTP checker** (`checks/http.go`). It runs one request per configured HTTP check and decides the verdict on the response.
- **The registry-push checker** (`checks/docker_push.go`). It pushes an image with base64url-encoded credentials and judges the push by the progress stream the registry returns.
- **The `run` command** (`cmd/run.go`). It loads canaries from configuration files, defaults their names and namespaces, and drains the result batches into pass/fail counts and an exit status.
- **The end-to-end fixture runner** (`test/run_test.go`). It decides which fixture files run, how their canaries are defaulted, and which results are test errors.

Everything these components ask of the outside world is a function-valued field or parameter, and the model states its properties for every choice of it. This covers:

- connection lookup, URL parsing, templating and header resolution;
- the HTTP request, the client's status-code policy and JSONPath;
- configuration contextualisation, credential lookup and JSON marshalling;
- the image push and the per-line JSON decoder;
- configuration parsing and the canary runner.

Failure messages are a `Reason` datatype, one constructor per message the source formats. A result is `Passed` or `Failed(reason)`.

Files:

| file | module | models |
|---|---|---|
| `wrappers.dfy` | `Wrappers` | `Option` and `Result` |
| `strs.dfy` | `Strs` | `strings.HasPrefix`, `HasSuffix`, `Contains`, `Replace(_, "_", "", -1)`, `Split`/`Join` on one character, `TrimSpace` emptiness |
| `paths.dfy` | `Paths` | `filepath.Ext` (with `/` as separator) and `path.Base` |
| `decimal.dfy` | `Decimal` | `strconv.Itoa` and a reference decimal parser |
| `base64url.dfy` | `Base64Url` | `base64.URLEncoding` (section 5 of RFC 4648, padded) |
| `config.dfy` | `Config` | the check configurations and the canary |
| `results.dfy` | `Results` | check results, metrics, reasons, and `FirstFailure`: the reference meaning of "the first failing step decides" |
| `http_check.dfy` | `HttpCheck` | the HTTP checker |
| `http_check_facts.dfy` | `HttpCheckFacts` | the validation steps of the HTTP checker, one per rule, and the lemmas relating them to the checker |
| `docker_push.dfy` | `DockerPush` | the registry-push checker |
| `run_cmd.dfy` | `RunCmd` | the `run` command |
| `fixtures.dfy` | `Fixtures` | the fixture runner |

The model follows the code as written:

- An unparsable configuration file is logged and skipped (`cmd/run.go:46-50`); only an empty file list is fatal.
- A fixture is exempt from the pass/fail expectation when its name contains `_mix`, underscore included (`test/run_test.go:90`).
- A malformed JSON body fails the check when no `test` expression is configured, and is ignored otherwise (`checks/http.go:209-213`).
- The diagnostic data is attached once the JSON step has passed; an earlier failure carries none (`checks/http.go:199-216`).

## Model

| member | source | states |
|---|---|---|
| HttpCheck.StatusCodeToClass | checks/http.go:242-256 | codes 100-599 map to their hundreds digit followed by "xx"; every other code, and only those, maps to "unknown" |
| HttpCheck.Truncate | checks/http.go:99-105 | the result is a prefix of the text, of length min(len, max), and is the whole text when it fits |
| HttpCheck.CheckJsonContent | checks/http.go:258-282 | no error exactly when there is no assertion, or the JSONPath match is a string or stringer whose text equals the expected value; a lookup error, a non-string match and a mismatching text each give their own error, the last naming the found and the expected value |
| HttpCheck.ResolveHeaders | checks/http.go:70-77 | succeeds exactly when every header resolves, giving one (name, value) pair per header in order; otherwise fails with the first header that does not resolve |
| HttpCheck.WrapInt64 | checks/http.go:234 | the Go int64 conversion: the result is in range and congruent to the input modulo 2^64 |
| HttpCheck.CertWindowExact | checks/http.go:234 | for 0..106751 days the 64-bit duration `days * Hour * 24` equals the exact number of nanoseconds |
| HttpCheck.Check | checks/http.go:107-112 | every path yields exactly one result, belonging to the check as configured |
| HttpCheck.Preflight | checks/http.go:114-160 | the checks before a request is sent; specified by HttpCheckFacts.BothTargetsRejected, ConfigErrorSendsNothing, ConnectionResolution, PreflightSucceedsIff, PreflightFailureReasons, PreparedFromConnection, RequestShape and RequestHeaders |
| HttpCheck.Conclude | checks/http.go:199-240 | the verdict on a response; specified by HttpCheckFacts.ConcludeIsFirstFailure and ConcludeAttachesData |
| HttpCheck.Evaluate | checks/http.go:114-240 | one HTTP check from configuration to verdict; specified by HttpCheckFacts.ResponseVerdict, TransportErrorFails and ConfigErrorSendsNothing |
| HttpCheck.Run | checks/http.go:59-65 | one result per configured HTTP check, in order, each the check's own result |
| Results.FirstFailure | checks/http.go:199-240 | no failure exactly when every step passes; otherwise the reason of a step whose predecessors all passed |
| HttpCheckFacts.ConcludeIsFirstFailure | checks/http.go:199-240 | after a response, the outcome is the first failing step among JSON, status code, threshold, content and certificate; the check, duration and metrics stay unchanged |
| HttpCheckFacts.ConcludeAttachesData | checks/http.go:188-216 | the diagnostic data is attached exactly when the JSON step passed, and holds the status code, the headers, the latency, the body, the certificate age (0 without a certificate) and the parsed document (the empty object when the body is not JSON or is malformed while `test` is set) |
| HttpCheckFacts.ConfigErrorSendsNothing | checks/http.go:115-160 | a configuration error fails with its reason, no metric, no data and no counter sample, whatever the transport would do |
| HttpCheckFacts.BothTargetsRejected | checks/http.go:115-117 | `endpoint` and `url` both set fails before anything is looked up, for every context |
| HttpCheckFacts.ConnectionResolution | checks/http.go:119-131 | the connection is looked up with `url` defaulted from `endpoint`; a lookup error and an empty connection URL are the respective failures |
| HttpCheckFacts.PreflightSucceedsIff | checks/http.go:124-160 | once the connection is found, preparation succeeds exactly when the connection URL is non-empty and parses, the body renders, every header resolves, and a non-empty body can be attached |
| HttpCheckFacts.PreflightFailureReasons | checks/http.go:139-160 | after a found connection with a URL, the first failing step names the reason: the URL parse error, the template error, the first unresolved header, or the error of attaching the body |
| HttpCheckFacts.PreparedFromConnection | checks/http.go:124-160 | a prepared check is the defaulted check adjusted by the connection's NTLM properties, and its request is the built request plus the body |
| HttpCheckFacts.RequestShape | checks/http.go:67-164 | the request goes to the connection URL, with one header per configured header, credentials iff the connection has a username or password, a timeout iff the threshold is positive; the `ntlm` property takes precedence over `ntlmv2` |
| HttpCheckFacts.RequestHeaders | checks/http.go:70-77 | every configured header resolved, and the request carries each one, in order, under its name with its resolved value |
| HttpCheckFacts.TransportErrorFails | checks/http.go:164-167 | a prepared request the transport cannot complete fails with the transport error, with no latency, metric, data or counter sample |
| HttpCheckFacts.ResponseVerdict | checks/http.go:162-240 | once a response arrives: latency recorded, one `response_code` metric with code and URL labels, a counter sample with the status class, and the outcome of the first failing step |
| HttpCheckFacts.MalformedJsonIgnoredWithTest | checks/http.go:209-213 | with a `test` configured, a malformed JSON body is judged as a non-JSON response |
| HttpCheckFacts.MalformedJsonFailsWithoutTest | checks/http.go:209-210 | without a `test`, a malformed JSON body fails at once, without data |
| HttpCheckFacts.ThresholdBoundary | checks/http.go:222-224 | after the earlier steps pass, the threshold fails the check iff it is positive and the latency strictly exceeds it |
| HttpCheckFacts.CertificateRule | checks/http.go:230-237 | with a day count from 1 to 106751, a missing certificate fails, and a present one passes iff it stays valid for at least that many days |
| HttpCheckFacts.MissingCertificateFails | checks/http.go:230-233 | with any positive day count, a response without a certificate fails once the other steps pass |
| HttpCheckFacts.CertWindowWraps | checks/http.go:234 | at 106752 days the 64-bit window `days * Hour * 24` wraps to a negative duration |
| HttpCheckFacts.WrappedWindowPassesExpired | checks/http.go:230-237 | at 106752 days, a certificate that expired a day ago passes the certificate step |
| HttpCheckFacts.ExampleAllowedCodePasses | checks/http.go:172-220 | a 200 response allowed by the policy, with nothing else configured, passes with data; its labels are "200" and "2xx" |
| HttpCheckFacts.ExampleCertificateExpiresSoon | checks/http.go:234-235 | a certificate with 10 days left fails a 30-day requirement, naming both |
| Base64Url.DecodeEncode | checks/docker_push.go:52 | decoding the encoding of any byte sequence gives it back |
| Base64Url.EncodeDecode | checks/docker_push.go:52 | every string that decodes is the encoding of what it decodes to |
| Base64Url.EncodeLength | checks/docker_push.go:52 | the padded encoding of n bytes has 4 * ceil(n / 3) characters |
| Base64Url.EncodeAlphabet | checks/docker_push.go:52 | the encoding uses only the URL-safe alphabet, with padding only in the last two positions |
| Base64Url.TestVectors | checks/docker_push.go:52 | the encoder gives the RFC 4648 vectors for "f", "fo" and "foo", and writes `-` and `_` for values 62 and 63 |
| DockerPush.AuthString | checks/docker_push.go:47-52 | the auth string decodes to exactly the marshalled credentials, and has the padded length |
| DockerPush.AuthStringInjective | checks/docker_push.go:47-52 | under an injective marshalling, distinct credentials give distinct auth strings |
| DockerPush.LineFailure | checks/docker_push.go:62-76 | a line's failure is either an invalid response or a rejected push; a non-blank line that does not decode fails as an invalid response quoting the line, and a non-blank record with an error fails as a rejected push with that error |
| DockerPush.LineFailureNone | checks/docker_push.go:63-76 | a line passes exactly when it is blank or decodes to a record with an empty error |
| DockerPush.ScanLines | checks/docker_push.go:62-77 | the scan of the pushed stream; specified by DockerPush.ScanIsFirstLineFailure, ScanPassIff, BlankLineIrrelevant and LaterLinesIrrelevant |
| DockerPush.ScanIsFirstLineFailure | checks/docker_push.go:61-77 | the scan of the stream reports the failure of the first failing line |
| DockerPush.ScanPassIff | checks/docker_push.go:61-77 | the scan finds nothing exactly when every non-blank line is a clean record |
| DockerPush.BlankLineIrrelevant | checks/docker_push.go:63-65 | inserting a blank line anywhere never changes the verdict |
| DockerPush.LaterLinesIrrelevant | checks/docker_push.go:70-76 | once a prefix has failed, later lines do not matter |
| DockerPush.Check | checks/docker_push.go:36-84 | the result belongs to the configured or the contextualised check, with no duration, no data and no metrics |
| DockerPush.NoPushBeforeCredentials | checks/docker_push.go:37-46 | a contextualise or credential failure fails the check without pushing; the first fails with `ContextualiseFailed`, the second with the credential error under the contextualised check, with no duration, data or metrics |
| DockerPush.PushCarriesCredentials | checks/docker_push.go:51-56 | the push carries an auth string that decodes to the marshalled credentials; a push error fails with that error |
| DockerPush.StreamVerdict | checks/docker_push.go:58-84 | after a push, the check passes iff every non-blank line is a clean record; otherwise the first failing line decides |
| DockerPush.Run | checks/docker_push.go:21-27 | one result per registry-push check, in order, against the canary's namespace |
| Strs.Contains | checks/http.go:226 | true exactly when the substring occurs at some position |
| Strs.JoinSplit | checks/docker_push.go:61 | the pieces of the split, re-joined with the separator, give the stream back |
| Strs.SplitPieces | checks/docker_push.go:61 | one piece more than there are separators, none of them holding a separator |
| Strs.SplitJoin | checks/docker_push.go:61 | splitting separator-free pieces joined by the separator gives the pieces back |
| Strs.TrimSpaceEmptyIffBlank | checks/docker_push.go:63 | trimming gives "" exactly when the line is all white space |
| Strs.RemoveChar | cmd/run.go:129 | the result has no underscore, keeps every other character's count, and is the input when there was none |
| Strs.RemoveCharAppend | cmd/run.go:129 | removing underscores distributes over concatenation, so the remaining characters keep their order |
| Decimal.ParseItoa | checks/http.go:176 | the code label reads back as the status code |
| Decimal.ItoaInjective | checks/http.go:176 | distinct codes get distinct labels |
| Paths.Ext | cmd/run.go:128 | a suffix of the path: "" iff the last element has no dot, otherwise a dot followed by no dot or separator |
| Paths.ExtOfDotted | cmd/run.go:128 | the extension of `stem.x` is `.x` whenever `x` holds no dot and no separator |
| Paths.Base | test/run_test.go:50 | never empty, and either "/" or free of separators |
| Paths.BaseOfEntryName | test/run_test.go:50 | a directory-entry name is its own base name |
| RunCmd.Stem | cmd/run.go:128 | stem followed by the extension gives the file name back |
| RunCmd.CleanupFilename | cmd/run.go:127-130 | no underscore in the result, never longer, and no other character more often than in the file name |
| RunCmd.CleanupStripsLastExtension | cmd/run.go:127-130 | for `stem.x`, only `.x` is cut and the stem loses its underscores only |
| RunCmd.CleanupWithoutExtension | cmd/run.go:127-130 | a name whose last element has no dot only loses its underscores |
| RunCmd.Normalize | cmd/run.go:52-57 | the spec is kept, a set name is kept, and without the flag the namespace is kept |
| RunCmd.NormalizeIdempotent | cmd/run.go:52-57 | defaulting twice is defaulting once; a non-empty flag always sets the namespace; an empty name becomes the cleaned file name |
| RunCmd.Gather | cmd/run.go:44-60 | the canaries scheduled from the configuration files; specified by RunCmd.GatherAppend, UnparsableFileSkipped, GatherSchedulesAll and GatherNamespace |
| RunCmd.GatherAppend | cmd/run.go:44-65 | the canaries of two file lists are those of each, in order |
| RunCmd.UnparsableFileSkipped | cmd/run.go:46-50 | an unparsable file contributes nothing and the others are unaffected |
| RunCmd.GatherSchedulesAll | cmd/run.go:44-65 | every canary of every parsable file is scheduled, defaulted |
| RunCmd.GatherNamespace | cmd/run.go:52-54 | with a non-empty flag, every scheduled canary is in that namespace |
| RunCmd.Load | cmd/run.go:32-34 | loading is fatal exactly when no file is given |
| RunCmd.CountFailedZero | cmd/run.go:74-80 | no failure is counted exactly when every result passed |
| RunCmd.Drain | cmd/run.go:74-84 | results are the batches concatenated in order; passed + failed equals their number; failed counts the failing results |
| RunCmd.CountsIndependentOfArrival | cmd/run.go:60-84 | any rearrangement of the batches gives the same number of results and of failures |
| RunCmd.Execute | cmd/run.go:30-116 | fatal iff no files; otherwise the results are every scheduled canary's results, and the exit status is 1 iff some result failed |
| Fixtures.BaseNames | test/run_test.go:49-50 | the base name of each entry, in order |
| Fixtures.Selected | test/run_test.go:51-53 | the fixture-name filter; specified by Fixtures.SelectNamesMembership and SelectionExamples |
| Fixtures.SelectNames | test/run_test.go:49-53 | only names that pass the filter are kept |
| Fixtures.SelectNamesMembership | test/run_test.go:51-53 | a name is kept exactly when it is listed and passes the filter |
| Fixtures.SelectMembership | test/run_test.go:46-53 | a fixture runs exactly when it passes the filter and is the base name of a listed entry |
| Fixtures.SelectNamesAppend | test/run_test.go:49-53 | selection keeps listing order |
| Fixtures.SelectionExamples | test/run_test.go:51-53 | `http_pass.yaml` runs; a leading underscore, `kustomization.yaml` and a `.yml` name do not |
| Fixtures.DefaultCanary | test/run_test.go:72-77 | the namespace is never empty, a set namespace or name is kept, and the spec is unchanged |
| Fixtures.DefaultingAgreesWithRun | test/run_test.go:72-77 | fixture defaulting is the `run` command's defaulting with namespace "default" for an unset namespace; defaulting is idempotent |
| Fixtures.Judge | test/run_test.go:86-99 | the judgement of one result; specified by Fixtures.JudgeRule and MixPrecedesFail |
| Fixtures.JudgeRule | test/run_test.go:86-99 | a result is an error iff it is missing, or the name lacks `_mix` and the result passed iff the name contains "fail" |
| Fixtures.MixPrecedesFail | test/run_test.go:90-95 | a passing result of a `_mix` fixture named "fail" is exempt |
| Fixtures.JudgeAll | test/run_test.go:86-100 | one judgement per result, in order |
| Fixtures.RunFixture | test/run_test.go:63-69 | an unparsable fixture yields exactly one parse error and runs nothing |
| Fixtures.RunErrorEndsFixture | test/run_test.go:80-84 | after a canary whose checks cannot run, later canaries change nothing |
| Fixtures.CanariesClean | test/run_test.go:71-101 | no error exactly when every canary ran and each result was as expected or exempt |
| Fixtures.FixtureClean | test/run_test.go:63-102 | a fixture is clean exactly when it parses, every canary runs, and every result is as expected or exempt |
| Fixtures.RunSuite | test/run_test.go:49-60 | one entry per selected fixture, in listing order, each with that fixture's reports |

## Left out

- Prometheus registration and the `canary_check_http_response_status` counter are not modelled as global state. The counter increment a response causes is returned as a `StatusSample` beside the result.
- The `canary_check_http_ssl_expiry` gauge is left out: it is a floating-point value in hours, and the model has no floating point.
- The second clock reading for the `elapsed` data field (`checks/http.go:193`) is modelled as the same latency as the first: the clock is not modelled.
- The HTTP client, tracing middleware, TLS and the network are left out. The request is a value, and sending it is an `HttpEnv` field.
- HttpCheckFacts.RequestShape: the request method is the configured `httpMethod` field; the `GetMethod` defaulting lives in the configuration type, which is not part of this model.
- Config.TestTemplate.IsEmpty: the template type is not part of this model. A test is taken as empty when all four of its fields are empty.
- DockerPush.Check: the failing results built by `Failf` carry no metrics and no data. `Failf` is not part of this model.
- Base64Url.Decode is the strict, canonical decoder of section 5 of RFC 4648. It is used only to state what the registry recovers from the auth string. Go's lenient handling of newlines and non-zero trailing bits is left out.
- RunCmd.Drain: the channel delivers batches in goroutine completion order. The model drains them in launch order. RunCmd.CountsIndependentOfArrival shows the counts are the same for every arrival order, though the printed order of results is not.
- Goroutines, the wait group and the channel (`cmd/run.go:41-72`, `test/run_test.go:48-60`) are left out. Each canary's batch is computed by the `runChecks` parameter.
- RunCmd.Execute: assumes no JUnit or CSV report is requested, or that generating and writing it succeeds. A failing report ends the process with status 1 through `logger.Fatalf` (`cmd/run.go:86-110`), even when every check passed. The report contents, the output file and the log lines are not modelled.
- RunCmd.Execute: assumes every result of a batch is present. A nil result would make the drain loop panic in the source; the fixture runner, which reports a nil result as an error, models one as `None`.
- `os.Exit` and `log.Fatalln` become the `ExitCode` value and the `Fatal` outcome.
- Strings are sequences of characters. Go strings are byte sequences. The string functions of `Strs` and `Paths` agree with Go on valid UTF-8; invalid UTF-8 is not modelled.
- HttpCheck.Truncate: cuts after `max` characters, while Go cuts after `max` bytes. For a body with multi-byte characters, the preview in a `ContentNotFound` failure holds more than 100 bytes in the model. Go may also cut inside a character. The model has no byte view of the body.
- HttpCheckFacts.CertificateRule: stated for day counts up to 106751. Above that, the 64-bit window wraps (HttpCheckFacts.CertWindowWraps), and `Conclude` follows the wrap (HttpCheckFacts.WrappedWindowPassesExpired).
- The Kubernetes client, the database context and `ParseConfig` are parameters. Configuration parsing is the `parse` function.

=== FILE: base64url.dfy ===
/** Base 64 encoding with the URL- and filename-safe alphabet and '='
    padding (section 5 of RFC 4648), as Go's `base64.URLEncoding` writes it.

    The encoding is taken in two layers: bytes to 6-bit symbols (with a pad
    symbol), then symbols to characters. `Decode` is the strict inverse: it
    rejects anything `Encode` cannot produce, so the two are inverse in both
    directions. */
module Base64Url {
  import opened Wrappers

  type byte = x: int | 0 <= x < 256
  type sextet = x: int | 0 <= x < 64

  /** One character of an encoding: a 6-bit value or the pad. */
  datatype Sym = Val(v: sextet) | PadSym

  const Pad: char := '='

  /** The alphabet of section 5 of RFC 4648: A-Z, a-z, 0-9, '-', '_'. */
  function CharOf(v: sextet): (c: char)
    ensures c != Pad
  {
    if v < 26 then ('A' as int + v) as char
    else if v < 52 then ('a' as int + (v - 26)) as char
    else if v < 62 then ('0' as int + (v - 52)) as char
    else if v == 62 then '-'
    else '_'
  }

  /** The value of an alphabet character; `None` for every other character,
      the pad included. */
  function IndexOf(c: char): (r: Option<sextet>)
    ensures r.Some? ==> CharOf(r.value) == c
  {
    if 'A' <= c <= 'Z' then Some(c as int - 'A' as int)
    else if 'a' <= c <= 'z' then Some(c as int - 'a' as int + 26)
    else if '0' <= c <= '9' then Some(c as int - '0' as int + 52)
    else if c == '-' then Some(62)
    else if c == '_' then Some(63)
    else None
  }

  /** No two values share a character. */
  lemma IndexOfCharOf(v: sextet)
    ensures IndexOf(CharOf(v)) == Some(v)
  {
  }

  predicate InAlphabet(c: char) {
    IndexOf(c).Some?
  }

  function SymChar(y: Sym): char {
    match y
    case Val(v) => CharOf(v)
    case PadSym => Pad
  }

  function CharSym(c: char): Option<Sym> {
    if c == Pad then Some(PadSym)
    else if InAlphabet(c) then Some(Val(IndexOf(c).value))
    else None
  }

  function Render(ys: seq<Sym>): (s: string)
    ensures |s| == |ys|
  {
    seq(|ys|, i requires 0 <= i < |ys| => SymChar(ys[i]))
  }

  /** The symbols of a text, or `None` when some character is neither in the
      alphabet nor the pad. */
  function Parse(s: string): Option<seq<Sym>> {
    if forall i :: 0 <= i < |s| ==> CharSym(s[i]).Some? then
      Some(seq(|s|, i requires 0 <= i < |s| && CharSym(s[i]).Some? => CharSym(s[i]).value))
    else
      None
  }

  lemma ParseRender(ys: seq<Sym>)
    ensures Parse(Render(ys)) == Some(ys)
  {
    var s := Render(ys);
    forall i | 0 <= i < |s|
      ensures CharSym(s[i]) == Some(ys[i])
    {
      if ys[i].Val? {
        IndexOfCharOf(ys[i].v);
      }
    }
    assert forall i :: 0 <= i < |s| ==> CharSym(s[i]).Some?;
    assert Parse(s).value == ys;
  }

  lemma RenderParse(s: string)
    requires Parse(s).Some?
    ensures Render(Parse(s).value) == s
  {
  }

  /** The sextets of a group b0 b1 b2. */
  function Hi(b0: byte): sextet { b0 / 4 }
  function MidA(b0: byte, b1: byte): sextet { (b0 % 4) * 16 + b1 / 16 }
  function MidB(b1: byte, b2: byte): sextet { (b1 % 16) * 4 + b2 / 64 }
  function Lo(b2: byte): sextet { b2 % 64 }

  /** The bytes packed in the sextets c0 c1 c2 c3. */
  function Byte0(c0: sextet, c1: sextet): byte { (c0 as int) * 4 + (c1 as int) / 16 }
  function Byte1(c1: sextet, c2: sextet): byte { ((c1 as int) % 16) * 16 + (c2 as int) / 4 }
  function Byte2(c2: sextet, c3: sextet): byte { ((c2 as int) % 4) * 64 + c3 as int }

  lemma PackUnpack(b0: byte, b1: byte, b2: byte)
    ensures Byte0(Hi(b0), MidA(b0, b1)) == b0
    ensures Byte1(MidA(b0, b1), MidB(b1, b2)) == b1
    ensures Byte2(MidB(b1, b2), Lo(b2)) == b2
  {
    var m := MidA(b0, b1);
    var n := MidB(b1, b2);
    assert m / 16 == b0 % 4 && m % 16 == b1 / 16;
    assert n / 4 == b1 % 16 && n % 4 == b2 / 64;
  }

  lemma UnpackPack(c0: sextet, c1: sextet, c2: sextet, c3: sextet)
    ensures Hi(Byte0(c0, c1)) == c0
    ensures MidA(Byte0(c0, c1), Byte1(c1, c2)) == c1
    ensures MidB(Byte1(c1, c2), Byte2(c2, c3)) == c2
    ensures Lo(Byte2(c2, c3)) == c3
  {
    var b0 := Byte0(c0, c1);
    var b1 := Byte1(c1, c2);
    var b2 := Byte2(c2, c3);
    assert b0 / 4 == c0 && b0 % 4 == c1 / 16;
    assert b1 / 16 == c1 % 16 && b1 % 16 == c2 / 4;
    assert b2 / 64 == c2 % 4 && b2 % 64 == c3;
  }

  /** Bytes as symbols: each group of three bytes becomes four values; a
      final group of two or one byte becomes three or two values, padded to
      four. */
  function EncodeSyms(b: seq<byte>): (ys: seq<Sym>)
    ensures |ys| == 0 <==> |b| == 0
    decreases |b|
  {
    if |b| == 0 then []
    else if |b| == 1 then [Val(Hi(b[0])), Val(MidA(b[0], 0)), PadSym, PadSym]
    else if |b| == 2 then [Val(Hi(b[0])), Val(MidA(b[0], b[1])), Val(MidB(b[1], 0)), PadSym]
    else [Val(Hi(b[0])), Val(MidA(b[0], b[1])), Val(MidB(b[1], b[2])), Val(Lo(b[2]))] + EncodeSyms(b[3..])
  }

  /** The last group of four symbols; leftover bits before a pad must be zero. */
  function DecodeLastGroup(g: seq<Sym>): Option<seq<byte>>
    requires |g| == 4
  {
    match (g[0], g[1], g[2], g[3])
    case (Val(c0), Val(c1), PadSym, PadSym) =>
      if c1 % 16 == 0 then Some([Byte0(c0, c1)]) else None
    case (Val(c0), Val(c1), Val(c2), PadSym) =>
      if c2 % 4 == 0 then Some([Byte0(c0, c1), Byte1(c1, c2)]) else None
    case (Val(c0), Val(c1), Val(c2), Val(c3)) =>
      Some([Byte0(c0, c1), Byte1(c1, c2), Byte2(c2, c3)])
    case _ => None
  }

  /** Symbols as bytes: groups of four, pads only in the last group. */
  function DecodeSyms(ys: seq<Sym>): Option<seq<byte>>
    decreases |ys|
  {
    if |ys| == 0 then Some([])
    else if |ys| < 4 then None
    else if |ys| == 4 then DecodeLastGroup(ys)
    else
      match (ys[0], ys[1], ys[2], ys[3], DecodeSyms(ys[4..]))
      case (Val(c0), Val(c1), Val(c2), Val(c3), Some(rest)) =>
        Some([Byte0(c0, c1), Byte1(c1, c2), Byte2(c2, c3)] + rest)
      case _ => None
  }

  /** `base64.URLEncoding.EncodeToString` */
  function Encode(b: seq<byte>): string {
    Render(EncodeSyms(b))
  }

  /** Strict padded decoding of section 5 of RFC 4648. */
  function Decode(s: string): Option<seq<byte>> {
    match Parse(s)
    case None => None
    case Some(ys) => DecodeSyms(ys)
  }

  lemma {:induction false} EncodeSymsLength(b: seq<byte>)
    ensures |EncodeSyms(b)| == 4 * ((|b| + 2) / 3)
    decreases |b|
  {
    if |b| > 2 {
      EncodeSymsLength(b[3..]);
    }
  }

  /** The length of an encoding: four characters per started group of three. */
  lemma EncodeLength(b: seq<byte>)
    ensures |Encode(b)| == 4 * ((|b| + 2) / 3)
  {
    EncodeSymsLength(b);
  }

  lemma {:induction false} EncodeSymsShape(b: seq<byte>)
    ensures forall i :: 0 <= i < |EncodeSyms(b)| - 2 ==> EncodeSyms(b)[i].Val?
    decreases |b|
  {
    if |b| > 2 {
      EncodeSymsShape(b[3..]);
      var ys := EncodeSyms(b);
      assert ys[4..] == EncodeSyms(b[3..]);
    }
  }

  /** Every character of an encoding is in the URL-safe alphabet, except
      pads among the last two; '+' and '/' never occur. */
  lemma EncodeAlphabet(b: seq<byte>)
    ensures forall i :: 0 <= i < |Encode(b)| ==> InAlphabet(Encode(b)[i]) || (Encode(b)[i] == Pad && i >= |Encode(b)| - 2)
  {
    EncodeSymsShape(b);
    var ys := EncodeSyms(b);
    forall i | 0 <= i < |ys|
      ensures InAlphabet(Encode(b)[i]) || (Encode(b)[i] == Pad && i >= |ys| - 2)
    {
      if ys[i].Val? {
        IndexOfCharOf(ys[i].v);
      }
    }
  }

  lemma LastGroupRoundTrip1(b0: byte)
    ensures DecodeLastGroup(EncodeSyms([b0])) == Some([b0])
  {
    var c0, c1 := Hi(b0), MidA(b0, 0);
    assert EncodeSyms([b0]) == [Val(c0), Val(c1), PadSym, PadSym];
    assert c1 % 16 == 0 && Byte0(c0, c1) == b0 by {
      var r := b0 % 4;
      assert c1 == r * 16;
      assert c1 / 16 == r;
    }
  }

  lemma LastGroupRoundTrip2(b0: byte, b1: byte)
    ensures DecodeLastGroup(EncodeSyms([b0, b1])) == Some([b0, b1])
  {
    assert EncodeSyms([b0, b1]) == [Val(Hi(b0)), Val(MidA(b0, b1)), Val(MidB(b1, 0)), PadSym];
    PackUnpack(b0, b1, 0);
    assert MidB(b1, 0) % 4 == 0;
  }

  lemma LastGroupRoundTrip3(b0: byte, b1: byte, b2: byte)
    ensures DecodeLastGroup(EncodeSyms([b0, b1, b2])) == Some([b0, b1, b2])
  {
    assert [b0, b1, b2][3..] == [];
    assert EncodeSyms([b0, b1, b2]) == [Val(Hi(b0)), Val(MidA(b0, b1)), Val(MidB(b1, b2)), Val(Lo(b2))];
    PackUnpack(b0, b1, b2);
  }

  lemma LastGroupRoundTrip(b: seq<byte>)
    requires 1 <= |b| <= 3
    ensures |EncodeSyms(b)| == 4 && DecodeLastGroup(EncodeSyms(b)) == Some(b)
  {
    EncodeSymsLength(b);
    if |b| == 1 {
      assert b == [b[0]];
      LastGroupRoundTrip1(b[0]);
    } else if |b| == 2 {
      assert b == [b[0], b[1]];
      LastGroupRoundTrip2(b[0], b[1]);
    } else {
      assert b == [b[0], b[1], b[2]];
      LastGroupRoundTrip3(b[0], b[1], b[2]);
    }
  }

  lemma {:induction false} DecodeEncodeSyms(b: seq<byte>)
    ensures DecodeSyms(EncodeSyms(b)) == Some(b)
    decreases |b|
  {
    if 1 <= |b| <= 3 {
      LastGroupRoundTrip(b);
    } else if |b| > 3 {
      var ys := EncodeSyms(b);
      DecodeEncodeSyms(b[3..]);
      PackUnpack(b[0], b[1], b[2]);
      assert ys[4..] == EncodeSyms(b[3..]);
      assert [b[0], b[1], b[2]] + b[3..] == b;
    }
  }

  /** Decoding an encoding gives back the original bytes. */
  lemma DecodeEncode(b: seq<byte>)
    ensures Decode(Encode(b)) == Some(b)
  {
    ParseRender(EncodeSyms(b));
    DecodeEncodeSyms(b);
  }

  lemma LastGroupCanonical1(c0: sextet, c1: sextet)
    requires c1 % 16 == 0
    ensures EncodeSyms([Byte0(c0, c1)]) == [Val(c0), Val(c1), PadSym, PadSym]
  {
    UnpackPack(c0, c1, 0, 0);
  }

  lemma LastGroupCanonical2(c0: sextet, c1: sextet, c2: sextet)
    requires c2 % 4 == 0
    ensures EncodeSyms([Byte0(c0, c1), Byte1(c1, c2)]) == [Val(c0), Val(c1), Val(c2), PadSym]
  {
    UnpackPack(c0, c1, c2, 0);
  }

  lemma LastGroupCanonical3(c0: sextet, c1: sextet, c2: sextet, c3: sextet)
    ensures EncodeSyms([Byte0(c0, c1), Byte1(c1, c2), Byte2(c2, c3)]) == [Val(c0), Val(c1), Val(c2), Val(c3)]
  {
    UnpackPack(c0, c1, c2, c3);
    var d := [Byte0(c0, c1), Byte1(c1, c2), Byte2(c2, c3)];
    assert d[3..] == [];
  }

  lemma LastGroupCanonical(g: seq<Sym>)
    requires |g| == 4 && DecodeLastGroup(g).Some?
    ensures EncodeSyms(DecodeLastGroup(g).value) == g
  {
    match (g[0], g[1], g[2], g[3])
    case (Val(c0), Val(c1), PadSym, PadSym) =>
      LastGroupCanonical1(c0, c1);
      assert g == [Val(c0), Val(c1), PadSym, PadSym];
    case (Val(c0), Val(c1), Val(c2), PadSym) =>
      LastGroupCanonical2(c0, c1, c2);
      assert g == [Val(c0), Val(c1), Val(c2), PadSym];
    case (Val(c0), Val(c1), Val(c2), Val(c3)) =>
      LastGroupCanonical3(c0, c1, c2, c3);
      assert g == [Val(c0), Val(c1), Val(c2), Val(c3)];
  }

  lemma {:induction false} EncodeDecodeSyms(ys: seq<Sym>)
    requires DecodeSyms(ys).Some?
    ensures EncodeSyms(DecodeSyms(ys).value) == ys
    decreases |ys|
  {
    if |ys| == 4 {
      LastGroupCanonical(ys);
    } else if |ys| > 4 {
      var c0, c1, c2, c3 := ys[0].v, ys[1].v, ys[2].v, ys[3].v;
      var rest := DecodeSyms(ys[4..]).value;
      EncodeDecodeSyms(ys[4..]);
      UnpackPack(c0, c1, c2, c3);
      var b := [Byte0(c0, c1), Byte1(c1, c2), Byte2(c2, c3)] + rest;
      assert b[3..] == rest;
      assert ys == ys[..4] + ys[4..];
    }
  }

  /** Whatever `Decode` accepts is exactly the encoding of what it returns:
      a text has at most one decoding and the bytes no other spelling. */
  lemma EncodeDecode(s: string)
    requires Decode(s).Some?
    ensures Encode(Decode(s).value) == s
  {
    var ys := Parse(s).value;
    EncodeDecodeSyms(ys);
    RenderParse(s);
  }

  /** The test vectors of section 10 of RFC 4648 for "f", "fo" and "foo",
      and two bytes whose encoding uses both URL-safe characters. */
  lemma TestVectors()
    ensures Encode([102]) == "Zg=="
    ensures Encode([102, 111]) == "Zm8="
    ensures Encode([102, 111, 111]) == "Zm9v"
    ensures Encode([0xfb, 0xff]) == "-_8="
  {
  }
}

=== FILE: config.dfy ===
/** The check configurations a canary declares (the `v1` API types), reduced
    to the fields the modelled checkers read. */
module Config {
  import opened Wrappers

  /** A value given literally or by reference to a secret or config map;
      resolving it is the job of the execution context. */
  datatype EnvVar = EnvVar(name: string, value: string, valueFrom: string)

  /** A JSONPath assertion: the value found at `path` must read as `value`. */
  datatype JsonCheck = JsonCheck(path: string, value: string)

  /** The `test` block of a check; each field is one way of writing a test. */
  datatype TestTemplate = TestTemplate(template: string, jsonPath: string, expression: string, javascript: string) {
    predicate IsEmpty() {
      template == "" && jsonPath == "" && expression == "" && javascript == ""
    }
  }

  datatype HttpCheck = HttpCheck(
    name: string,
    connection: string,
    endpoint: string,
    url: string,
    httpMethod: string,
    body: string,
    templateBody: bool,
    headers: seq<EnvVar>,
    ntlm: bool,
    ntlmv2: bool,
    thresholdMillis: int,
    responseCodes: seq<int>,
    responseContent: string,
    responseJsonContent: Option<JsonCheck>,
    maxSslExpiry: int,
    test: TestTemplate)

  datatype Authentication = Authentication(username: EnvVar, password: EnvVar)

  datatype DockerPushCheck = DockerPushCheck(name: string, image: string, auth: Authentication)

  datatype CanarySpec = CanarySpec(http: seq<HttpCheck>, dockerPush: seq<DockerPushCheck>)

  /** One named batch of checks loaded from a configuration file. */
  datatype Canary = Canary(name: string, namespace: string, spec: CanarySpec)
}

=== FILE: decimal.dfy ===
/** `strconv.Itoa`: the decimal text of an integer, used for the `code` label
    of the response-code metric. */
module Decimal {
  import opened Wrappers

  predicate IsDigit(c: char) {
    '0' <= c <= '9'
  }

  function DigitChar(d: nat): (c: char)
    requires d < 10
    ensures IsDigit(c) && (c as int) - ('0' as int) == d
  {
    ('0' as int + d) as char
  }

  /** Decimal digits of `n`, most significant first, without leading zeros. */
  function NatToString(n: nat): (s: string)
    decreases n
  {
    if n < 10 then [DigitChar(n)] else NatToString(n / 10) + [DigitChar(n % 10)]
  }

  /** `strconv.Itoa`: a '-' sign for negative values, then the digits. */
  function Itoa(n: int): (s: string)
    ensures |s| > 0
    ensures n < 0 <==> s[0] == '-'
    ensures forall i :: 0 < i < |s| ==> IsDigit(s[i])
    ensures n >= 0 ==> IsDigit(s[0])
    ensures s != "-"
  {
    NatToStringDigits(if n < 0 then -n else n);
    if n < 0 then "-" + NatToString(-n) else NatToString(n)
  }

  lemma {:induction false} NatToStringDigits(n: nat)
    ensures |NatToString(n)| > 0
    ensures forall i :: 0 <= i < |NatToString(n)| ==> IsDigit(NatToString(n)[i])
    decreases n
  {
    if n >= 10 {
      NatToStringDigits(n / 10);
    }
  }

  /** Value of a non-empty run of digits, read left to right. */
  function DigitsValue(s: string): nat
    requires forall i :: 0 <= i < |s| ==> IsDigit(s[i])
    decreases |s|
  {
    if |s| == 0 then 0
    else
      assert IsDigit(s[|s| - 1]);
      DigitsValue(s[..|s| - 1]) * 10 + ((s[|s| - 1] as int) - ('0' as int))
  }

  /** A reference reader of decimal integers: an optional '-' followed by one
      or more digits; anything else is rejected. */
  function ParseInt(s: string): Option<int> {
    if |s| > 0 && s[0] == '-' then
      var t := s[1..];
      if |t| > 0 && forall i :: 0 <= i < |t| ==> IsDigit(t[i]) then Some(0 - DigitsValue(t)) else None
    else if |s| > 0 && forall i :: 0 <= i < |s| ==> IsDigit(s[i]) then Some(DigitsValue(s))
    else None
  }

  lemma {:induction false} DigitsValueOfNat(n: nat)
    ensures forall i :: 0 <= i < |NatToString(n)| ==> IsDigit(NatToString(n)[i])
    ensures DigitsValue(NatToString(n)) == n
    decreases n
  {
    NatToStringDigits(n);
    var s := NatToString(n);
    if n >= 10 {
      DigitsValueOfNat(n / 10);
      assert s[..|s| - 1] == NatToString(n / 10);
    } else {
      assert s[..|s| - 1] == "";
    }
  }

  /** Reading back the text that `Itoa` writes gives the original number. */
  lemma ParseItoa(n: int)
    ensures ParseInt(Itoa(n)) == Some(n)
  {
    var m: nat := if n < 0 then -n else n;
    DigitsValueOfNat(m);
    if n < 0 {
      assert Itoa(n)[1..] == NatToString(m);
    }
  }

  /** Distinct numbers get distinct labels. */
  lemma ItoaInjective(m: int, n: int)
    ensures Itoa(m) == Itoa(n) <==> m == n
  {
    ParseItoa(m);
    ParseItoa(n);
  }
}

=== FILE: docker_push.dfy ===
/** The registry-push check (`DockerPushChecker`): push an image with
    base64url-encoded credentials and judge the push by the progress
    stream the registry sends back. */
module DockerPush {
  import opened Wrappers
  import opened Config
  import opened Results
  import opened Strs
  import B = Base64Url

  /** The credentials handed to the Docker client (`types.AuthConfig`). */
  datatype AuthConfig = AuthConfig(username: string, password: string)

  /** One line of the push stream as the JSON decoder sees it: either it
      does not decode, or it yields the `status` and `error` fields. */
  datatype LineRecord = Invalid(err: string) | Record(status: string, error: string)

  /** What the execution context and the Docker client provide. `marshal`
      is `json.Marshal` of the credentials; `push` returns the whole
      progress stream or the client's error. */
  datatype PushEnv = PushEnv(
    contextualise: DockerPushCheck -> Result<DockerPushCheck, string>,
    getAuth: (Authentication, string) -> Result<AuthConfig, string>,
    marshal: AuthConfig -> seq<B.byte>,
    push: (string, string) -> Result<string, string>,
    decodeLine: string -> LineRecord)

  /** The `RegistryAuth` string: the marshalled credentials in the
      URL-safe base64 alphabet with padding. The registry can always
      recover the exact bytes. */
  function AuthString(auth: AuthConfig, marshal: AuthConfig -> seq<B.byte>): (s: string)
    ensures B.Decode(s) == Some(marshal(auth))
    ensures |s| == 4 * ((|marshal(auth)| + 2) / 3)
  {
    B.DecodeEncode(marshal(auth));
    B.EncodeLength(marshal(auth));
    B.Encode(marshal(auth))
  }

  /** Whenever the marshalling is injective, distinct credentials give
      distinct auth strings. */
  lemma AuthStringInjective(a: AuthConfig, b: AuthConfig, marshal: AuthConfig -> seq<B.byte>)
    requires marshal(a) == marshal(b) ==> a == b
    ensures AuthString(a, marshal) == AuthString(b, marshal) ==> a == b
  {
    if AuthString(a, marshal) == AuthString(b, marshal) {
      assert Some(marshal(a)) == Some(marshal(b));
    }
  }

  /** The loop body of `DockerPushChecker.Check` for one line of the stream: a blank line is skipped, a
      line that does not decode or carries an error stops the scan. */
  function LineFailure(line: string, decode: string -> LineRecord): (r: Option<Reason>)
    ensures r.Some? ==> r.value.InvalidPushResponse? || r.value.PushRejected?
    ensures !IsBlank(line) && decode(line).Invalid? ==> r == Some(InvalidPushResponse(decode(line).err, line))
    ensures !IsBlank(line) && decode(line).Record? && decode(line).error != "" ==> r == Some(PushRejected(decode(line).error))
  {
    TrimSpaceEmptyIffBlank(line);
    if TrimSpace(line) == "" then None
    else
      match decode(line)
      case Invalid(e) => Some(InvalidPushResponse(e, line))
      case Record(_, err) => if err != "" then Some(PushRejected(err)) else None
  }

  predicate CleanLine(line: string, decode: string -> LineRecord) {
    decode(line).Record? && decode(line).error == ""
  }

  /** A line stops the scan exactly when it is not blank and is not a
      record with an empty error. */
  lemma LineFailureNone(line: string, decode: string -> LineRecord)
    ensures LineFailure(line, decode).None? <==> IsBlank(line) || CleanLine(line, decode)
  {
    TrimSpaceEmptyIffBlank(line);
  }

  /** The scan of the push stream, line by line in order. */
  function ScanLines(lines: seq<string>, decode: string -> LineRecord): (r: Option<Reason>)
    decreases |lines|
  {
    if |lines| == 0 then None
    else if LineFailure(lines[0], decode).Some? then LineFailure(lines[0], decode)
    else ScanLines(lines[1..], decode)
  }

  function LineFailures(lines: seq<string>, decode: string -> LineRecord): (fs: seq<Option<Reason>>)
    ensures |fs| == |lines|
    ensures forall i :: 0 <= i < |lines| ==> fs[i] == LineFailure(lines[i], decode)
  {
    seq(|lines|, i requires 0 <= i < |lines| => LineFailure(lines[i], decode))
  }

  /** The scan reports the failure of the first line that has one. */
  lemma {:induction false} ScanIsFirstLineFailure(lines: seq<string>, decode: string -> LineRecord)
    ensures ScanLines(lines, decode) == FirstFailure(LineFailures(lines, decode))
    decreases |lines|
  {
    if |lines| > 0 {
      var fs := LineFailures(lines, decode);
      var rest := LineFailures(lines[1..], decode);
      assert fs[1..] == rest by {
        forall i | 0 <= i < |rest| ensures fs[1..][i] == rest[i] {
          assert lines[1..][i] == lines[i + 1];
        }
      }
      assert FirstFailure(fs) == if fs[0].Some? then fs[0] else FirstFailure(rest) by {
        FirstFailureCons(fs);
      }
      ScanIsFirstLineFailure(lines[1..], decode);
    }
  }

  /** Every non-blank line of the stream is a record without error. */
  predicate StreamClean(lines: seq<string>, decode: string -> LineRecord) {
    forall i :: 0 <= i < |lines| && !IsBlank(lines[i]) ==> CleanLine(lines[i], decode)
  }

  /** The scan finds nothing exactly when the stream is clean. */
  lemma ScanPassIff(lines: seq<string>, decode: string -> LineRecord)
    ensures ScanLines(lines, decode).None? <==> StreamClean(lines, decode)
  {
    ScanIsFirstLineFailure(lines, decode);
    forall i | 0 <= i < |lines| {
      LineFailureNone(lines[i], decode);
    }
  }

  /** A blank line never changes the verdict. */
  lemma {:induction false} BlankLineIrrelevant(a: seq<string>, line: string, b: seq<string>, decode: string -> LineRecord)
    requires IsBlank(line)
    ensures ScanLines(a + [line] + b, decode) == ScanLines(a + b, decode)
    decreases |a|
  {
    if |a| == 0 {
      assert LineFailure(line, decode).None? by {
        LineFailureNone(line, decode);
      }
      var x := [line] + b;
      assert a + [line] + b == x && a + b == b;
      assert x[0] == line && x[1..] == b;
    } else {
      var x, y := a + [line] + b, a + b;
      assert x[0] == a[0] && y[0] == a[0];
      assert x[1..] == a[1..] + [line] + b && y[1..] == a[1..] + b;
      assert ScanLines(x[1..], decode) == ScanLines(y[1..], decode) by {
        BlankLineIrrelevant(a[1..], line, b, decode);
      }
    }
  }

  /** Once a prefix of the stream has failed, nothing after it matters. */
  lemma {:induction false} LaterLinesIrrelevant(a: seq<string>, b: seq<string>, decode: string -> LineRecord)
    requires ScanLines(a, decode).Some?
    ensures ScanLines(a + b, decode) == ScanLines(a, decode)
    decreases |a|
  {
    assert (a + b)[0] == a[0];
    assert (a + b)[1..] == a[1..] + b;
    if LineFailure(a[0], decode).None? {
      LaterLinesIrrelevant(a[1..], b, decode);
    }
  }

  function FailWith(check: DockerPushCheck, r: Reason): CheckResult {
    CheckResult(DockerPushRef(check), Failed(r), 0, None, [])
  }

  /** One registry-push check against a canary in `namespace`. */
  function Check(cfg: DockerPushCheck, namespace: string, env: PushEnv): (r: CheckResult)
    ensures r.check == DockerPushRef(cfg)
      || (env.contextualise(cfg).Success? && r.check == DockerPushRef(env.contextualise(cfg).value))
    ensures r.durationMs == 0 && r.data.None? && r.metrics == []
  {
    match env.contextualise(cfg)
    case Failure(_) => FailWith(cfg, ContextualiseFailed)
    case Success(check) =>
      match env.getAuth(check.auth, namespace)
      case Failure(e) => FailWith(check, AuthFetchFailed(e))
      case Success(auth) =>
        match env.push(check.image, AuthString(auth, env.marshal))
        case Failure(e) => FailWith(check, PushFailed(e))
        case Success(out) =>
          match ScanLines(Split(out, '\n'), env.decodeLine)
          case Some(r) => FailWith(check, r)
          case None => CheckResult(DockerPushRef(check), Passed, 0, None, [])
  }

  /** When the configuration cannot be contextualised or the credentials
      cannot be fetched, the check fails and no push happens: the result
      is the same whatever the Docker client would do. */
  lemma NoPushBeforeCredentials(cfg: DockerPushCheck, namespace: string, env: PushEnv, push': (string, string) -> Result<string, string>)
    requires env.contextualise(cfg).Failure? || env.getAuth(env.contextualise(cfg).value.auth, namespace).Failure?
    ensures Check(cfg, namespace, env) == Check(cfg, namespace, env.(push := push'))
    ensures !Check(cfg, namespace, env).Pass()
    ensures env.contextualise(cfg).Failure? ==> Check(cfg, namespace, env).outcome == Failed(ContextualiseFailed)
    ensures env.contextualise(cfg).Success? && env.getAuth(env.contextualise(cfg).value.auth, namespace).Failure? ==>
      Check(cfg, namespace, env) ==
        CheckResult(DockerPushRef(env.contextualise(cfg).value), Failed(AuthFetchFailed(env.getAuth(env.contextualise(cfg).value.auth, namespace).error)), 0, None, [])
  {
  }

  /** The image is pushed under the contextualised name, with an auth
      string that decodes to the marshalled credentials. */
  lemma PushCarriesCredentials(cfg: DockerPushCheck, namespace: string, env: PushEnv)
    requires env.contextualise(cfg).Success?
    requires env.getAuth(env.contextualise(cfg).value.auth, namespace).Success?
    ensures var check := env.contextualise(cfg).value;
      var auth := env.getAuth(check.auth, namespace).value;
      B.Decode(AuthString(auth, env.marshal)) == Some(env.marshal(auth))
    ensures var check := env.contextualise(cfg).value;
      var auth := env.getAuth(check.auth, namespace).value;
      env.push(check.image, AuthString(auth, env.marshal)).Failure? ==>
        Check(cfg, namespace, env).outcome == Failed(PushFailed(env.push(check.image, AuthString(auth, env.marshal)).error))
  {
  }

  /** After a push, the check passes exactly when every non-blank line of
      the stream is a record with an empty error; otherwise it fails with
      the first failing line's reason. */
  lemma StreamVerdict(cfg: DockerPushCheck, namespace: string, env: PushEnv)
    requires env.contextualise(cfg).Success?
    requires env.getAuth(env.contextualise(cfg).value.auth, namespace).Success?
    requires var check := env.contextualise(cfg).value;
      env.push(check.image, AuthString(env.getAuth(check.auth, namespace).value, env.marshal)).Success?
    ensures var check := env.contextualise(cfg).value;
      var out := env.push(check.image, AuthString(env.getAuth(check.auth, namespace).value, env.marshal)).value;
      var lines := Split(out, '\n');
      && (Check(cfg, namespace, env).Pass() <==> StreamClean(lines, env.decodeLine))
      && Check(cfg, namespace, env).outcome == OutcomeOf(FirstFailure(LineFailures(lines, env.decodeLine)))
      && Check(cfg, namespace, env).check == DockerPushRef(check)
  {
    var check := env.contextualise(cfg).value;
    var out := env.push(check.image, AuthString(env.getAuth(check.auth, namespace).value, env.marshal)).value;
    var lines := Split(out, '\n');
    var r := Check(cfg, namespace, env);
    assert r.outcome == OutcomeOf(ScanLines(lines, env.decodeLine)) && r.check == DockerPushRef(check);
    assert r.Pass() <==> StreamClean(lines, env.decodeLine) by {
      ScanPassIff(lines, env.decodeLine);
    }
    assert r.outcome == OutcomeOf(FirstFailure(LineFailures(lines, env.decodeLine))) by {
      ScanIsFirstLineFailure(lines, env.decodeLine);
    }
  }

  /** `DockerPushChecker.Run`: one result per registry-push check of the
      canary, in order. */
  function Run(canary: Canary, env: PushEnv): (rs: seq<CheckResult>)
    ensures |rs| == |canary.spec.dockerPush|
    ensures forall i :: 0 <= i < |rs| ==> rs[i] == Check(canary.spec.dockerPush[i], canary.namespace, env)
  {
    seq(|canary.spec.dockerPush|, i requires 0 <= i < |canary.spec.dockerPush| => Check(canary.spec.dockerPush[i], canary.namespace, env))
  }
}

=== FILE: fixtures.dfy ===
/** The end-to-end fixture runner (`TestRunChecks` and `runFixture`): which
    fixture files run, how their canaries are defaulted, and which results
    count as test errors. */
module Fixtures {
  import opened Wrappers
  import opened Config
  import opened Results
  import opened Strs
  import opened Paths
  import RunCmd

  /** The filter of `TestRunChecks`: a fixture runs when its name does not start with an
      underscore, ends in `.yaml` and is not the kustomization file. */
  predicate Selected(name: string) {
    !HasPrefix(name, "_") && HasSuffix(name, ".yaml") && name != "kustomization.yaml"
  }

  /** The base names of a directory listing, as `TestRunChecks` takes them. */
  function BaseNames(entries: seq<string>): (names: seq<string>)
    ensures |names| == |entries|
    ensures forall i :: 0 <= i < |entries| ==> names[i] == Base(entries[i])
  {
    seq(|entries|, i requires 0 <= i < |entries| => Base(entries[i]))
  }

  /** The names that pass the filter, in order. */
  function SelectNames(names: seq<string>): (selected: seq<string>)
    ensures |selected| <= |names|
    ensures forall i :: 0 <= i < |selected| ==> Selected(selected[i])
    decreases |names|
  {
    if |names| == 0 then []
    else if Selected(names[0]) then [names[0]] + SelectNames(names[1..])
    else SelectNames(names[1..])
  }

  /** The fixture names run for a directory listing, in listing order. */
  function SelectFixtures(entries: seq<string>): seq<string> {
    SelectNames(BaseNames(entries))
  }

  /** A name is kept exactly when it is in the list and passes the filter. */
  lemma {:induction false} SelectNamesMembership(names: seq<string>, n: string)
    ensures n in SelectNames(names) <==> n in names && Selected(n)
    decreases |names|
  {
    if |names| > 0 {
      SelectNamesMembership(names[1..], n);
      assert names == [names[0]] + names[1..];
    }
  }

  /** A fixture is run exactly when it is the base name of some listed
      entry and passes the filter. */
  lemma SelectMembership(entries: seq<string>, n: string)
    ensures n in SelectFixtures(entries) <==> Selected(n) && exists i :: 0 <= i < |entries| && Base(entries[i]) == n
  {
    SelectNamesMembership(BaseNames(entries), n);
    if n in BaseNames(entries) {
      var i :| 0 <= i < |entries| && BaseNames(entries)[i] == n;
    }
  }

  /** Selection keeps listing order: a listing split in two is selected
      part by part. */
  lemma {:induction false} SelectNamesAppend(a: seq<string>, b: seq<string>)
    ensures SelectNames(a + b) == SelectNames(a) + SelectNames(b)
    decreases |a|
  {
    if |a| == 0 {
      assert a + b == b;
    } else {
      assert (a + b)[0] == a[0];
      assert (a + b)[1..] == a[1..] + b;
      SelectNamesAppend(a[1..], b);
    }
  }

  lemma SelectionExamples()
    ensures Selected("http_pass.yaml")
    ensures !Selected("_http_pass.yaml")
    ensures !Selected("kustomization.yaml")
    ensures !Selected("http_pass.yml")
  {
    assert "http_pass.yaml"[..1] == "h";
    assert "http_pass.yaml"[9..] == ".yaml";
    assert "_http_pass.yaml"[..1] == "_";
    assert "http_pass.yml"[8..][0] == 's';
  }

  /** The defaulting in `runFixture`: an empty namespace becomes "default", an empty name the
      fallback name, which the runner derives from the fixture file name. */
  function DefaultCanary(c: Canary, fallbackName: string): (r: Canary)
    ensures r.namespace != "" && r.spec == c.spec
    ensures c.namespace != "" ==> r.namespace == c.namespace
    ensures c.name != "" ==> r.name == c.name
  {
    var c := if c.namespace == "" then c.(namespace := "default") else c;
    if c.name == "" then c.(name := fallbackName) else c
  }

  /** The fixture runner defaults like the `run` command would with
      `--namespace default` for a canary without namespace, and without
      the flag otherwise. */
  lemma DefaultingAgreesWithRun(c: Canary, fixture: string)
    ensures DefaultCanary(c, RunCmd.CleanupFilename(fixture)) ==
      RunCmd.Normalize(c, if c.namespace == "" then "default" else "", fixture)
    ensures DefaultCanary(DefaultCanary(c, fixture), fixture) == DefaultCanary(c, fixture)
  {
  }

  /** How one result of a fixture is judged. */
  datatype Verdict = NilResult | Exempt | UnexpectedPass | UnexpectedFail | AsExpected {
    predicate IsError() {
      this == NilResult || this == UnexpectedPass || this == UnexpectedFail
    }
  }

  /** The judgement loop of `runFixture`, in its order: a missing result, then the `_mix`
      exemption, then the expectation that names containing "fail" fail. */
  function Judge(name: string, res: Option<CheckResult>): Verdict {
    if res.None? then NilResult
    else if Contains(name, "_mix") then Exempt
    else if Contains(name, "fail") && res.value.Pass() then UnexpectedPass
    else if !Contains(name, "fail") && !res.value.Pass() then UnexpectedFail
    else AsExpected
  }

  /** A result is reported as an error exactly when it is missing, or when
      the fixture is not a `_mix` one and the result passed although the
      name says "fail" or failed although it does not. */
  lemma JudgeRule(name: string, res: Option<CheckResult>)
    ensures Judge(name, res).IsError() <==>
      res.None? || (!(exists i :: OccursAt(name, "_mix", i)) && (res.value.Pass() <==> exists i :: OccursAt(name, "fail", i)))
  {
  }

  /** The `_mix` exemption comes first: a mixed fixture named "fail" is not
      held to failing. */
  lemma MixPrecedesFail(name: string, r: CheckResult)
    requires Contains(name, "_mix") && Contains(name, "fail") && r.Pass()
    ensures Judge(name, Some(r)) == Exempt
  {
  }

  /** What the fixture test reports. */
  datatype Report = ParseFailed(err: string) | RunFailed(err: string) | Judged(v: Verdict) {
    predicate IsError() {
      ParseFailed? || RunFailed? || v.IsError()
    }
  }

  function JudgeAll(name: string, rs: seq<Option<CheckResult>>): (reports: seq<Report>)
    ensures |reports| == |rs|
    ensures forall i :: 0 <= i < |rs| ==> reports[i] == Judged(Judge(name, rs[i]))
  {
    seq(|rs|, i requires 0 <= i < |rs| => Judged(Judge(name, rs[i])))
  }

  /** The canaries of one fixture in order; a canary whose checks cannot be
      run ends this fixture's subtest: `runFixture` returns from its `t.Run` closure. */
  function RunCanaries(name: string, fallback: string, cs: seq<Canary>, runChecks: Canary -> Result<seq<Option<CheckResult>>, string>): seq<Report>
    decreases |cs|
  {
    if |cs| == 0 then []
    else
      match runChecks(DefaultCanary(cs[0], fallback))
      case Failure(e) => [RunFailed(e)]
      case Success(rs) => JudgeAll(name, rs) + RunCanaries(name, fallback, cs[1..], runChecks)
  }

  /** `runFixture`: a configuration that does not parse is one error and
      nothing runs. */
  function RunFixture(name: string, parse: string -> Result<seq<Canary>, string>,
                      runChecks: Canary -> Result<seq<Option<CheckResult>>, string>): (reports: seq<Report>)
    ensures parse(name).Failure? ==> reports == [ParseFailed(parse(name).error)]
  {
    match parse(name)
    case Failure(e) => [ParseFailed(e)]
    case Success(cs) => RunCanaries(name, RunCmd.CleanupFilename(name), cs, runChecks)
  }

  /** After a canary whose checks cannot be run, later canaries are never
      run: the reports do not depend on them, and the last report is that
      canary's error unless an earlier one already ended the fixture. */
  lemma {:induction false} RunErrorEndsFixture(name: string, fallback: string, a: seq<Canary>, c: Canary, b: seq<Canary>,
                                               runChecks: Canary -> Result<seq<Option<CheckResult>>, string>)
    requires runChecks(DefaultCanary(c, fallback)).Failure?
    ensures RunCanaries(name, fallback, a + [c] + b, runChecks) == RunCanaries(name, fallback, a + [c], runChecks)
    decreases |a|
  {
    if |a| == 0 {
      assert a + [c] + b == [c] + b && a + [c] == [c];
    } else {
      var x, y := a + [c] + b, a + [c];
      assert x[0] == a[0] && y[0] == a[0];
      assert x[1..] == a[1..] + [c] + b && y[1..] == a[1..] + [c];
      RunErrorEndsFixture(name, fallback, a[1..], c, b, runChecks);
      match runChecks(DefaultCanary(a[0], fallback))
      case Failure(_) =>
      case Success(rs) =>
        assert RunCanaries(name, fallback, x, runChecks) == JudgeAll(name, rs) + RunCanaries(name, fallback, x[1..], runChecks);
        assert RunCanaries(name, fallback, y, runChecks) == JudgeAll(name, rs) + RunCanaries(name, fallback, y[1..], runChecks);
    }
  }

  /** No report of the list is an error. */
  predicate Clean(reports: seq<Report>) {
    forall i :: 0 <= i < |reports| ==> !reports[i].IsError()
  }

  lemma CleanAppend(a: seq<Report>, b: seq<Report>)
    ensures Clean(a + b) <==> Clean(a) && Clean(b)
  {
    if Clean(a) && Clean(b) {
      forall i | 0 <= i < |a + b| ensures !(a + b)[i].IsError() {
        if i >= |a| { assert (a + b)[i] == b[i - |a|]; }
      }
    }
    if Clean(a + b) {
      forall i | 0 <= i < |a| ensures !a[i].IsError() {
        assert (a + b)[i] == a[i];
      }
      forall i | 0 <= i < |b| ensures !b[i].IsError() {
        assert (a + b)[|a| + i] == b[i];
      }
    }
  }

  /** One canary ran and every result was what the fixture name promises. */
  predicate CanaryAsPromised(name: string, fallback: string, c: Canary, runChecks: Canary -> Result<seq<Option<CheckResult>>, string>) {
    && runChecks(DefaultCanary(c, fallback)).Success?
    && forall j :: 0 <= j < |runChecks(DefaultCanary(c, fallback)).value| ==>
         !Judge(name, runChecks(DefaultCanary(c, fallback)).value[j]).IsError()
  }

  /** A fixture's canaries report no error exactly when each of them ran
      and every result was judged as expected or exempt. */
  lemma {:induction false} CanariesClean(name: string, fallback: string, cs: seq<Canary>, runChecks: Canary -> Result<seq<Option<CheckResult>>, string>)
    ensures Clean(RunCanaries(name, fallback, cs, runChecks)) <==> forall k :: 0 <= k < |cs| ==> CanaryAsPromised(name, fallback, cs[k], runChecks)
    decreases |cs|
  {
    if |cs| > 0 {
      CanariesClean(name, fallback, cs[1..], runChecks);
      assert forall k :: 1 <= k < |cs| ==> cs[k] == cs[1..][k - 1];
      match runChecks(DefaultCanary(cs[0], fallback))
      case Failure(e) =>
        assert RunCanaries(name, fallback, cs, runChecks)[0].IsError();
      case Success(rs) =>
        var front := JudgeAll(name, rs);
        var rest := RunCanaries(name, fallback, cs[1..], runChecks);
        CleanAppend(front, rest);
        assert Clean(front) <==> CanaryAsPromised(name, fallback, cs[0], runChecks);
    }
  }

  /** A fixture reports no error exactly when its configuration parses,
      every canary runs and every result is judged as expected or exempt. */
  lemma FixtureClean(name: string, parse: string -> Result<seq<Canary>, string>,
                     runChecks: Canary -> Result<seq<Option<CheckResult>>, string>)
    ensures Clean(RunFixture(name, parse, runChecks)) <==>
      parse(name).Success? && forall k :: 0 <= k < |parse(name).value| ==> CanaryAsPromised(name, RunCmd.CleanupFilename(name), parse(name).value[k], runChecks)
  {
    if parse(name).Success? {
      CanariesClean(name, RunCmd.CleanupFilename(name), parse(name).value, runChecks);
    } else {
      assert RunFixture(name, parse, runChecks)[0].IsError();
    }
  }

  /** `TestRunChecks`: the selected fixtures of a listing, each with its
      reports. */
  function RunSuite(entries: seq<string>, parse: string -> Result<seq<Canary>, string>,
                    runChecks: Canary -> Result<seq<Option<CheckResult>>, string>): (suite: seq<(string, seq<Report>)>)
    ensures |suite| == |SelectFixtures(entries)|
    ensures forall i :: 0 <= i < |suite| ==> suite[i].0 == SelectFixtures(entries)[i] && Selected(suite[i].0)
    ensures forall i :: 0 <= i < |suite| ==> suite[i].1 == RunFixture(suite[i].0, parse, runChecks)
  {
    var names := SelectFixtures(entries);
    seq(|names|, i requires 0 <= i < |names| => (names[i], RunFixture(names[i], parse, runChecks)))
  }
}

=== FILE: http_check.dfy ===
/** The HTTP checker: one request per configured check and a verdict on the
    response. Everything the checker asks of the outside world (connection
    lookup, URL parsing, templating, header resolution, the request itself,
    the status-code policy and JSONPath queries) is a field of `HttpEnv`. */
module HttpCheck {
  import opened Wrappers
  import opened Config
  import opened Results
  import opened Strs
  import Decimal

  /** The resolved target of a check. */
  datatype Connection = Connection(url: string, username: string, password: string, properties: map<string, string>)

  datatype Credentials = Credentials(username: string, password: string)

  /** The request handed to the HTTP client. */
  datatype Request = Request(
    httpMethod: string,
    url: string,
    headers: seq<(string, string)>,
    auth: Option<Credentials>,
    ntlm: bool,
    ntlmv2: bool,
    timeoutMs: Option<int>,
    traceBodyLimit: Option<int>,
    body: Option<string>)

  /** What reading the body as JSON gave: not a JSON response, a document,
      or a parse error. */
  datatype JsonBody = NotJson | ParsedJson(doc: Json) | MalformedJson(err: string)

  /** The observed response; `elapsedMs` is the latency measured around the
      request and `sslAgeNanos` the certificate's remaining validity. */
  datatype Response = Response(
    status: int,
    elapsedMs: nat,
    headers: map<string, seq<string>>,
    body: string,
    sslAgeNanos: Option<int>,
    json: JsonBody)

  /** The dynamic type of a JSONPath match: a string, a value with a string
      form, or anything else. */
  datatype PathValue = StringValue(s: string) | StringerValue(text: string) | OtherValue
  datatype PathResult = PathError(err: string) | Found(value: PathValue)

  datatype HttpEnv = HttpEnv(
    getConnection: HttpCheck -> Result<Connection, string>,
    parseUrl: string -> Option<string>,
    template: string -> Result<string, string>,
    envValue: EnvVar -> Result<string, string>,
    setBody: string -> Option<string>,
    send: Request -> Result<Response, string>,
    isOK: (int, seq<int>) -> bool,
    jsonPath: (string, Json) -> PathResult,
    tracing: bool)

  /** One increment of the process-wide response-status counter. */
  datatype StatusSample = StatusSample(status: string, statusClass: string, url: string)

  /** A check's result together with the counter increment it caused. */
  datatype Evaluation = Evaluation(result: CheckResult, sample: Option<StatusSample>)

  /** The checked configuration after defaulting, its connection and the
      request ready to send. */
  datatype Prepared = Prepared(check: HttpCheck, conn: Connection, request: Request)

  const TraceBodyLimit: int := 512
  const PreviewLength: nat := 100
  const NanosPerHour: int := 3_600_000_000_000
  const NanosPerDay: int := 24 * NanosPerHour
  const TwoTo63: int := 0x8000_0000_0000_0000

  /** The class label of a status code: its hundreds digit followed by "xx"
      for codes 100 to 599, "unknown" otherwise. */
  function StatusCodeToClass(code: int): (c: string)
    ensures 100 <= code < 600 ==> c == [Decimal.DigitChar(code / 100)] + "xx"
    ensures !(100 <= code < 600) <==> c == "unknown"
  {
    if code >= 100 && code < 200 then "1xx"
    else if code >= 200 && code < 300 then "2xx"
    else if code >= 300 && code < 400 then "3xx"
    else if code >= 400 && code < 500 then "4xx"
    else if code >= 500 && code < 600 then "5xx"
    else "unknown"
  }

  /** At most the first `max` characters of `text`. */
  function Truncate(text: string, max: nat): (r: string)
    ensures |r| == if |text| <= max then |text| else max
    ensures HasPrefix(text, r)
    ensures |text| <= max ==> r == text
  {
    if |text| <= max then text else text[0..max]
  }

  /** The text of a JSONPath match, when it has one. */
  function TextOf(v: PathValue): Option<string> {
    match v
    case StringValue(s) => Some(s)
    case StringerValue(t) => Some(t)
    case OtherValue => None
  }

  /** `checkJSONContent`: `None` (no error) when there is no assertion or the
      match reads exactly as the expected value. */
  function CheckJsonContent(doc: Json, jc: Option<JsonCheck>, jsonPath: (string, Json) -> PathResult): (r: Option<JsonContentError>)
    ensures r.None? <==>
      (jc.None? || (jsonPath(jc.value.path, doc).Found? && TextOf(jsonPath(jc.value.path, doc).value) == Some(jc.value.value)))
    ensures jc.Some? && jsonPath(jc.value.path, doc).PathError? ==> r == Some(PathLookupFailed(jsonPath(jc.value.path, doc).err))
    ensures jc.Some? && jsonPath(jc.value.path, doc) == Found(OtherValue) ==> r == Some(NotAString)
    ensures jc.Some? && jsonPath(jc.value.path, doc).Found? && TextOf(jsonPath(jc.value.path, doc).value).Some?
      && TextOf(jsonPath(jc.value.path, doc).value).value != jc.value.value
      ==> r == Some(ValueMismatch(TextOf(jsonPath(jc.value.path, doc).value).value, jc.value.value))
  {
    match jc
    case None => None
    case Some(c) =>
      match jsonPath(c.path, doc)
      case PathError(e) => Some(PathLookupFailed(e))
      case Found(StringValue(s)) => if s != c.value then Some(ValueMismatch(s, c.value)) else None
      case Found(StringerValue(t)) => if t != c.value then Some(ValueMismatch(t, c.value)) else None
      case Found(OtherValue) => Some(NotAString)
  }

  /** Resolve every header value in order; the first header that cannot be
      resolved is the error. */
  function ResolveHeaders(headers: seq<EnvVar>, envValue: EnvVar -> Result<string, string>): (r: Result<seq<(string, string)>, Reason>)
    ensures r.Success? <==> forall i :: 0 <= i < |headers| ==> envValue(headers[i]).Success?
    ensures r.Success? ==> |r.value| == |headers|
    ensures r.Success? ==> forall i :: 0 <= i < |headers| ==> r.value[i] == (headers[i].name, envValue(headers[i]).value)
    ensures r.Failure? ==> exists i ::
      && 0 <= i < |headers|
      && envValue(headers[i]).Failure?
      && (forall j :: 0 <= j < i ==> envValue(headers[j]).Success?)
      && r.error == HeaderFailed(headers[i], envValue(headers[i]).error)
    decreases |headers|
  {
    if |headers| == 0 then Success([])
    else
      match envValue(headers[0])
      case Failure(e) => Failure(HeaderFailed(headers[0], e))
      case Success(v) =>
        match ResolveHeaders(headers[1..], envValue)
        case Failure(r) =>
          ghost var k :| 0 <= k < |headers| - 1 && envValue(headers[1..][k]).Failure?
            && (forall j :: 0 <= j < k ==> envValue(headers[1..][j]).Success?)
            && r == HeaderFailed(headers[1..][k], envValue(headers[1..][k]).error);
          assert forall j :: 0 <= j < k + 1 ==> envValue(headers[j]).Success? by {
            forall j | 0 <= j < k + 1 ensures envValue(headers[j]).Success? {
              if j > 0 {
                assert headers[j] == headers[1..][j - 1];
              }
            }
          }
          Failure(r)
        case Success(rest) => Success([(headers[0].name, v)] + rest)
  }

  /** An `endpoint` given without `url` becomes the `url`. */
  function ResolveTarget(cfg: HttpCheck): HttpCheck {
    if cfg.endpoint != "" && cfg.url == "" then cfg.(url := cfg.endpoint) else cfg
  }

  /** A connection's `ntlm` property overrides the check's NTLM flag; only
      when it is absent does `ntlmv2` override the NTLMv2 flag. */
  function ApplyNtlm(chk: HttpCheck, props: map<string, string>): HttpCheck {
    if "ntlm" in props then chk.(ntlm := props["ntlm"] == "true")
    else if "ntlmv2" in props then chk.(ntlmv2 := props["ntlmv2"] == "true")
    else chk
  }

  /** The request before a body is attached (`generateHTTPRequest`). */
  function BuildRequest(chk: HttpCheck, conn: Connection, env: HttpEnv): Result<Request, Reason> {
    match ResolveHeaders(chk.headers, env.envValue)
    case Failure(r) => Failure(r)
    case Success(headers) =>
      Success(Request(
        chk.httpMethod,
        conn.url,
        headers,
        if conn.username != "" || conn.password != "" then Some(Credentials(conn.username, conn.password)) else None,
        chk.ntlm,
        chk.ntlmv2,
        if chk.thresholdMillis > 0 then Some(chk.thresholdMillis) else None,
        if env.tracing then Some(TraceBodyLimit) else None,
        None))
  }

  /** Everything before the request is sent; each failure here is a
      configuration error. */
  function Preflight(cfg: HttpCheck, env: HttpEnv): Result<Prepared, Reason> {
    if cfg.endpoint != "" && cfg.url != "" then Failure(BothEndpointAndUrl)
    else
      var chk := ResolveTarget(cfg);
      match env.getConnection(chk)
      case Failure(e) => Failure(ConnectionLookupFailed(e))
      case Success(conn) =>
        if conn.url == "" then Failure(NoUrl)
        else
          var chk := ApplyNtlm(chk, conn.properties);
          match env.parseUrl(conn.url)
          case Some(e) => Failure(UrlParseFailed(e))
          case None =>
            var body := if chk.templateBody then env.template(chk.body) else Success(chk.body);
            if body.Failure? then Failure(TemplateFailed(body.error))
            else
              match BuildRequest(chk, conn, env)
              case Failure(r) => Failure(r)
              case Success(rq) =>
                if body.value == "" then Success(Prepared(chk, conn, rq))
                else
                  match env.setBody(body.value)
                  case Some(e) => Failure(BodyFailed(e))
                  case None => Success(Prepared(chk, conn, rq.(body := Some(body.value))))
  }

  /** Go's conversion of a mathematical integer to a 64-bit signed integer. */
  function WrapInt64(x: int): (r: int)
    ensures -TwoTo63 <= r < TwoTo63
    ensures (r - x) % (2 * TwoTo63) == 0
  {
    (x + TwoTo63) % (2 * TwoTo63) - TwoTo63
  }

  /** `time.Duration(days) * time.Hour * 24`, in 64-bit nanoseconds. */
  function CertWindowNanos(days: int): int {
    WrapInt64(WrapInt64(days * NanosPerHour) * 24)
  }

  /** Up to 106751 days (the longest whole number of days a 64-bit duration
      holds) the window is exact. */
  lemma CertWindowExact(days: int)
    requires 0 <= days <= 106751
    ensures CertWindowNanos(days) == days * NanosPerDay
  {
    assert days * NanosPerHour < TwoTo63;
    assert days * NanosPerHour * 24 < TwoTo63;
  }

  function ResponseCodeMetric(status: int, url: string): Metric {
    Metric("response_code", Counter, map["code" := Decimal.Itoa(status), "url" := url])
  }

  /** The verdict on a received response (the code after the request): the
      JSON step, then the diagnostic data, then status code, latency,
      content and certificate, the first failure ending the check. */
  function Conclude(measured: CheckResult, chk: HttpCheck, resp: Response, env: HttpEnv): CheckResult {
    var json :=
      match resp.json
      case NotJson => Success(JObject([]))
      case ParsedJson(doc) =>
        if chk.responseJsonContent.Some? && chk.responseJsonContent.value.path != "" then
          match CheckJsonContent(doc, chk.responseJsonContent, env.jsonPath)
          case Some(e) => Failure(JsonContentFailed(e))
          case None => Success(doc)
        else Success(doc)
      case MalformedJson(e) =>
        if chk.test.IsEmpty() then Failure(InvalidJson(e)) else Success(JObject([]));
    if json.Failure? then measured.(outcome := Failed(json.error))
    else
      var data := ResponseData(resp.status, resp.headers, resp.elapsedMs, resp.body,
                               if resp.sslAgeNanos.Some? then resp.sslAgeNanos.value else 0, json.value);
      var r := measured.(data := Some(data));
      if !env.isOK(resp.status, chk.responseCodes) then
        r.(outcome := Failed(ResponseCodeInvalid(resp.status, chk.responseCodes)))
      else if chk.thresholdMillis > 0 && chk.thresholdMillis < resp.elapsedMs then
        r.(outcome := Failed(ThresholdExceeded(resp.elapsedMs, chk.thresholdMillis)))
      else if chk.responseContent != "" && !Contains(resp.body, chk.responseContent) then
        r.(outcome := Failed(ContentNotFound(chk.responseContent, Truncate(resp.body, PreviewLength))))
      else if chk.maxSslExpiry > 0 && resp.sslAgeNanos.None? then
        r.(outcome := Failed(NoCertificate))
      else if chk.maxSslExpiry > 0 && resp.sslAgeNanos.value < CertWindowNanos(chk.maxSslExpiry) then
        r.(outcome := Failed(CertificateExpiresSoon(resp.sslAgeNanos.value, chk.maxSslExpiry)))
      else
        r
  }

  /** One HTTP check (`HTTPChecker.Check`), with the counter increment it
      causes when a response arrives. */
  function Evaluate(cfg: HttpCheck, env: HttpEnv): Evaluation {
    var initial := CheckResult(HttpRef(cfg), Passed, 0, None, []);
    match Preflight(cfg, env)
    case Failure(r) => Evaluation(initial.(outcome := Failed(r)), None)
    case Success(p) =>
      match env.send(p.request)
      case Failure(e) => Evaluation(initial.(outcome := Failed(RequestFailed(e))), None)
      case Success(resp) =>
        var measured := initial.(durationMs := resp.elapsedMs, metrics := [ResponseCodeMetric(resp.status, p.check.url)]);
        var sample := StatusSample(Decimal.Itoa(resp.status), StatusCodeToClass(resp.status), p.check.url);
        Evaluation(Conclude(measured, p.check, resp, env), Some(sample))
  }

  /** `HTTPChecker.Check`: always exactly one result, belonging to the
      configuration as given. */
  function Check(cfg: HttpCheck, env: HttpEnv): (rs: seq<CheckResult>)
    ensures |rs| == 1 && rs[0].check == HttpRef(cfg)
  {
    [Evaluate(cfg, env).result]
  }

  /** `HTTPChecker.Run`: one result per configured check, in order. */
  function Run(cfgs: seq<HttpCheck>, env: HttpEnv): (rs: seq<CheckResult>)
    ensures |rs| == |cfgs|
    ensures forall i :: 0 <= i < |cfgs| ==> rs[i].check == HttpRef(cfgs[i]) && rs[i] == Check(cfgs[i], env)[0]
    decreases |cfgs|
  {
    if |cfgs| == 0 then []
    else
      var init := cfgs[..|cfgs| - 1];
      assert forall i :: 0 <= i < |init| ==> init[i] == cfgs[i];
      Run(init, env) + Check(cfgs[|cfgs| - 1], env)
  }
}

=== FILE: http_check_facts.dfy ===
/** Properties of the HTTP checker: the order of its validation steps, its
    configuration-error paths, the request it builds, and the JSON,
    threshold and certificate rules. */
module HttpCheckFacts {
  import opened Wrappers
  import opened Config
  import opened Results
  import opened Strs
  import opened H = HttpCheck
  import Decimal

  /** The JSON step: a JSONPath assertion that does not hold, or a body that
      claims to be JSON but does not parse while no `test` is configured. */
  function JsonStep(chk: HttpCheck, resp: Response, env: HttpEnv): Option<Reason> {
    match resp.json
    case ParsedJson(doc) =>
      if chk.responseJsonContent.Some? && chk.responseJsonContent.value.path != ""
         && CheckJsonContent(doc, chk.responseJsonContent, env.jsonPath).Some?
      then Some(JsonContentFailed(CheckJsonContent(doc, chk.responseJsonContent, env.jsonPath).value))
      else None
    case MalformedJson(e) => if chk.test.IsEmpty() then Some(InvalidJson(e)) else None
    case NotJson => None
  }

  /** The status code must satisfy the client's success policy. */
  function CodeStep(chk: HttpCheck, resp: Response, env: HttpEnv): Option<Reason> {
    if env.isOK(resp.status, chk.responseCodes) then None
    else Some(ResponseCodeInvalid(resp.status, chk.responseCodes))
  }

  /** A positive threshold must not be strictly exceeded. */
  function ThresholdStep(chk: HttpCheck, resp: Response): Option<Reason> {
    if chk.thresholdMillis > 0 && resp.elapsedMs > chk.thresholdMillis
    then Some(ThresholdExceeded(resp.elapsedMs, chk.thresholdMillis))
    else None
  }

  /** Expected content must occur somewhere in the body. */
  ghost function ContentStep(chk: HttpCheck, resp: Response): Option<Reason> {
    if chk.responseContent != "" && !(exists i :: OccursAt(resp.body, chk.responseContent, i))
    then Some(ContentNotFound(chk.responseContent, Truncate(resp.body, PreviewLength)))
    else None
  }

  /** With a positive `maxSslExpiry`, a certificate must be present and valid
      for at least that many days. */
  function CertStep(chk: HttpCheck, resp: Response): Option<Reason> {
    if chk.maxSslExpiry <= 0 then None
    else if resp.sslAgeNanos.None? then Some(NoCertificate)
    else if resp.sslAgeNanos.value < CertWindowNanos(chk.maxSslExpiry)
    then Some(CertificateExpiresSoon(resp.sslAgeNanos.value, chk.maxSslExpiry))
    else None
  }

  ghost function Steps(chk: HttpCheck, resp: Response, env: HttpEnv): seq<Option<Reason>> {
    [JsonStep(chk, resp, env), CodeStep(chk, resp, env), ThresholdStep(chk, resp), ContentStep(chk, resp), CertStep(chk, resp)]
  }

  /** After a response, the outcome is the first failing step in the order
      JSON, status code, threshold, content, certificate; nothing else of
      the result changes except the diagnostic data. */
  lemma ConcludeIsFirstFailure(m: CheckResult, chk: HttpCheck, resp: Response, env: HttpEnv)
    requires m.outcome == Passed
    ensures Conclude(m, chk, resp, env).outcome == OutcomeOf(FirstFailure(Steps(chk, resp, env)))
    ensures var r := Conclude(m, chk, resp, env);
      r.check == m.check && r.durationMs == m.durationMs && r.metrics == m.metrics
  {
    var a, b, c, d, e := JsonStep(chk, resp, env), CodeStep(chk, resp, env), ThresholdStep(chk, resp), ContentStep(chk, resp), CertStep(chk, resp);
    assert d.Some? <==> chk.responseContent != "" && !Contains(resp.body, chk.responseContent);
    assert FirstFailure(Steps(chk, resp, env)) ==
      if a.Some? then a else if b.Some? then b else if c.Some? then c else if d.Some? then d else e
    by {
      FirstOfFive(a, b, c, d, e);
    }
  }

  /** The diagnostic data (code, headers, latency, body, certificate age and
      parsed document) is attached exactly when the JSON step passed,
      whatever the later steps say. */
  lemma ConcludeAttachesData(m: CheckResult, chk: HttpCheck, resp: Response, env: HttpEnv)
    requires m.data.None?
    ensures Conclude(m, chk, resp, env).data.Some? <==> JsonStep(chk, resp, env).None?
    ensures Conclude(m, chk, resp, env).data.Some? ==>
      var d := Conclude(m, chk, resp, env).data.value;
      d.code == resp.status && d.headers == resp.headers && d.elapsedMs == resp.elapsedMs && d.content == resp.body
    ensures Conclude(m, chk, resp, env).data.Some? ==>
      var d := Conclude(m, chk, resp, env).data.value;
      && d.sslAgeNanos == (if resp.sslAgeNanos.Some? then resp.sslAgeNanos.value else 0)
      && d.json == (if resp.json.ParsedJson? then resp.json.doc else JObject([]))
  {
  }

  lemma FirstOfFive(a: Option<Reason>, b: Option<Reason>, c: Option<Reason>, d: Option<Reason>, e: Option<Reason>)
    ensures FirstFailure([a, b, c, d, e]) ==
      if a.Some? then a else if b.Some? then b else if c.Some? then c else if d.Some? then d else e
  {
    assert FirstFailure([e]) == e by { assert [e][1..] == []; }
    assert FirstFailure([d, e]) == if d.Some? then d else e by { assert [d, e][1..] == [e]; }
    assert FirstFailure([c, d, e]) == if c.Some? then c else FirstFailure([d, e]) by { assert [c, d, e][1..] == [d, e]; }
    assert FirstFailure([b, c, d, e]) == if b.Some? then b else FirstFailure([c, d, e]) by { assert [b, c, d, e][1..] == [c, d, e]; }
    assert [a, b, c, d, e][1..] == [b, c, d, e];
  }

  /** A configuration error (pre-flight failure) sends nothing, records no
      metric and attaches no data: the result does not depend on the
      transport at all. */
  lemma ConfigErrorSendsNothing(cfg: HttpCheck, env: HttpEnv, send': Request -> Result<Response, string>)
    requires Preflight(cfg, env).Failure?
    ensures Evaluate(cfg, env) == Evaluate(cfg, env.(send := send'))
    ensures Evaluate(cfg, env).result == CheckResult(HttpRef(cfg), Failed(Preflight(cfg, env).error), 0, None, [])
    ensures Evaluate(cfg, env).sample.None?
  {
    assert Preflight(cfg, env) == Preflight(cfg, env.(send := send'));
  }

  /** Setting both `endpoint` and `url` fails before anything is looked up:
      the result is the same whatever the context provides. */
  lemma BothTargetsRejected(cfg: HttpCheck, env: HttpEnv, env': HttpEnv)
    requires cfg.endpoint != "" && cfg.url != ""
    ensures Evaluate(cfg, env) == Evaluate(cfg, env')
    ensures Evaluate(cfg, env).result.outcome == Failed(BothEndpointAndUrl)
    ensures Evaluate(cfg, env).sample.None?
  {
  }

  /** The connection is looked up with `url` defaulted from `endpoint`; a
      failed lookup and an empty connection URL are configuration errors. */
  lemma ConnectionResolution(cfg: HttpCheck, env: HttpEnv)
    requires !(cfg.endpoint != "" && cfg.url != "")
    ensures ResolveTarget(cfg) == cfg.(url := if cfg.endpoint != "" then cfg.endpoint else cfg.url)
    ensures env.getConnection(ResolveTarget(cfg)).Failure? ==>
      Evaluate(cfg, env).result.outcome == Failed(ConnectionLookupFailed(env.getConnection(ResolveTarget(cfg)).error))
    ensures env.getConnection(ResolveTarget(cfg)).Success? && env.getConnection(ResolveTarget(cfg)).value.url == "" ==>
      Evaluate(cfg, env).result.outcome == Failed(NoUrl)
  {
  }

  /** A prepared check is the one the connection's properties adjusted, and
      its request is the built request with the rendered body attached. */
  lemma PreparedFromConnection(cfg: HttpCheck, env: HttpEnv)
    requires Preflight(cfg, env).Success?
    ensures var p := Preflight(cfg, env).value;
      && env.getConnection(ResolveTarget(cfg)) == Success(p.conn)
      && p.conn.url != ""
      && p.check == ApplyNtlm(ResolveTarget(cfg), p.conn.properties)
      && BuildRequest(p.check, p.conn, env).Success?
      && p.request.(body := None) == BuildRequest(p.check, p.conn, env).value
  {
  }

  /** Once both targets are not set and the connection is found, preparation
      succeeds exactly when the connection has a URL that parses, the body
      renders, every header resolves and a non-empty body can be set. */
  lemma PreflightSucceedsIff(cfg: HttpCheck, env: HttpEnv)
    requires !(cfg.endpoint != "" && cfg.url != "")
    requires env.getConnection(ResolveTarget(cfg)).Success?
    ensures var conn := env.getConnection(ResolveTarget(cfg)).value;
      var chk := ApplyNtlm(ResolveTarget(cfg), conn.properties);
      var body := if chk.templateBody then env.template(chk.body) else Success(chk.body);
      Preflight(cfg, env).Success? <==>
        && conn.url != ""
        && env.parseUrl(conn.url).None?
        && body.Success?
        && (forall i :: 0 <= i < |cfg.headers| ==> env.envValue(cfg.headers[i]).Success?)
        && (body.value != "" ==> env.setBody(body.value).None?)
  {
    var conn := env.getConnection(ResolveTarget(cfg)).value;
    var chk := ApplyNtlm(ResolveTarget(cfg), conn.properties);
    assert chk.headers == cfg.headers;
    assert BuildRequest(chk, conn, env).Success? <==> ResolveHeaders(cfg.headers, env.envValue).Success?;
  }

  /** Each later configuration error names its own reason: the URL parse
      error, the template error, the first header that does not resolve,
      and the error of attaching the body, in that order. */
  lemma PreflightFailureReasons(cfg: HttpCheck, env: HttpEnv)
    requires !(cfg.endpoint != "" && cfg.url != "")
    requires env.getConnection(ResolveTarget(cfg)).Success?
    requires env.getConnection(ResolveTarget(cfg)).value.url != ""
    ensures var conn := env.getConnection(ResolveTarget(cfg)).value;
      env.parseUrl(conn.url).Some? ==> Preflight(cfg, env) == Failure(UrlParseFailed(env.parseUrl(conn.url).value))
    ensures var conn := env.getConnection(ResolveTarget(cfg)).value;
      var chk := ApplyNtlm(ResolveTarget(cfg), conn.properties);
      var body := if chk.templateBody then env.template(chk.body) else Success(chk.body);
      env.parseUrl(conn.url).None? && body.Failure? ==> Preflight(cfg, env) == Failure(TemplateFailed(body.error))
    ensures var conn := env.getConnection(ResolveTarget(cfg)).value;
      var chk := ApplyNtlm(ResolveTarget(cfg), conn.properties);
      var body := if chk.templateBody then env.template(chk.body) else Success(chk.body);
      env.parseUrl(conn.url).None? && body.Success? && ResolveHeaders(cfg.headers, env.envValue).Failure? ==>
        Preflight(cfg, env) == Failure(ResolveHeaders(cfg.headers, env.envValue).error)
    ensures var conn := env.getConnection(ResolveTarget(cfg)).value;
      var chk := ApplyNtlm(ResolveTarget(cfg), conn.properties);
      var body := if chk.templateBody then env.template(chk.body) else Success(chk.body);
      env.parseUrl(conn.url).None? && body.Success? && ResolveHeaders(cfg.headers, env.envValue).Success?
      && body.value != "" && env.setBody(body.value).Some? ==>
        Preflight(cfg, env) == Failure(BodyFailed(env.setBody(body.value).value))
  {
    var conn := env.getConnection(ResolveTarget(cfg)).value;
    var chk := ApplyNtlm(ResolveTarget(cfg), conn.properties);
    assert chk.headers == cfg.headers;
  }

  /** The request that is sent: to the connection's URL, with every header
      resolved, credentials only when the connection has some, a timeout
      only for a positive threshold, and NTLM flags where the connection's
      `ntlm` property takes precedence over `ntlmv2`. */
  lemma RequestShape(cfg: HttpCheck, env: HttpEnv)
    requires Preflight(cfg, env).Success?
    ensures var p := Preflight(cfg, env).value;
      && p.request.url == p.conn.url != ""
      && p.request.httpMethod == cfg.httpMethod
      && |p.request.headers| == |cfg.headers|
      && (p.request.auth.Some? <==> p.conn.username != "" || p.conn.password != "")
      && (p.request.timeoutMs.Some? <==> cfg.thresholdMillis > 0)
      && (p.request.timeoutMs.Some? ==> p.request.timeoutMs.value == cfg.thresholdMillis)
    ensures var p := Preflight(cfg, env).value; var props := p.conn.properties;
      && ("ntlm" in props ==> p.request.ntlm == (props["ntlm"] == "true") && p.request.ntlmv2 == cfg.ntlmv2)
      && ("ntlm" !in props && "ntlmv2" in props ==> p.request.ntlm == cfg.ntlm && p.request.ntlmv2 == (props["ntlmv2"] == "true"))
      && ("ntlm" !in props && "ntlmv2" !in props ==> p.request.ntlm == cfg.ntlm && p.request.ntlmv2 == cfg.ntlmv2)
  {
    PreparedFromConnection(cfg, env);
    var p := Preflight(cfg, env).value;
    var rq := BuildRequest(p.check, p.conn, env).value;
    assert p.request.(body := None) == rq;
    assert ResolveHeaders(p.check.headers, env.envValue).Success?;
  }

  /** The request carries every configured header, in order, under its
      name and with its resolved value. */
  lemma RequestHeaders(cfg: HttpCheck, env: HttpEnv)
    requires Preflight(cfg, env).Success?
    ensures |Preflight(cfg, env).value.request.headers| == |cfg.headers|
    ensures var p := Preflight(cfg, env).value;
      forall i :: 0 <= i < |cfg.headers| ==>
        env.envValue(cfg.headers[i]).Success? && p.request.headers[i] == (cfg.headers[i].name, env.envValue(cfg.headers[i]).value)
  {
    var p := Preflight(cfg, env).value;
    assert ResolveHeaders(cfg.headers, env.envValue).Success? && p.request.headers == ResolveHeaders(cfg.headers, env.envValue).value by {
      PreparedFromConnection(cfg, env);
    }
  }

  /** For a check that reaches the network: the result keeps the latency and
      one `response_code` metric labelled with the code and the resolved
      URL, the counter sample carries the status class, and the outcome is
      the first failing validation step. */
  lemma ResponseVerdict(cfg: HttpCheck, env: HttpEnv)
    requires Preflight(cfg, env).Success?
    requires env.send(Preflight(cfg, env).value.request).Success?
    ensures var p := Preflight(cfg, env).value;
      var resp := env.send(p.request).value;
      var e := Evaluate(cfg, env);
      && e.result.check == HttpRef(cfg)
      && e.result.durationMs == resp.elapsedMs
      && e.result.metrics == [Metric("response_code", Counter, map["code" := Decimal.Itoa(resp.status), "url" := p.check.url])]
      && e.sample == Some(StatusSample(Decimal.Itoa(resp.status), StatusCodeToClass(resp.status), p.check.url))
      && e.result.outcome == OutcomeOf(FirstFailure(Steps(p.check, resp, env)))
  {
    var p := Preflight(cfg, env).value;
    var resp := env.send(p.request).value;
    var measured := CheckResult(HttpRef(cfg), Passed, resp.elapsedMs, None, [ResponseCodeMetric(resp.status, p.check.url)]);
    ConcludeIsFirstFailure(measured, p.check, resp, env);
  }

  /** A transport error (the request was prepared but could not be
      completed) fails with that error, records no latency, metric or data,
      and causes no counter increment. */
  lemma TransportErrorFails(cfg: HttpCheck, env: HttpEnv)
    requires Preflight(cfg, env).Success?
    requires env.send(Preflight(cfg, env).value.request).Failure?
    ensures Evaluate(cfg, env).result ==
      CheckResult(HttpRef(cfg), Failed(RequestFailed(env.send(Preflight(cfg, env).value.request).error)), 0, None, [])
    ensures Evaluate(cfg, env).sample.None?
  {
  }

  /** A JSON body that does not parse is ignored when a `test` is
      configured: the verdict is the one for a non-JSON response. */
  lemma MalformedJsonIgnoredWithTest(m: CheckResult, chk: HttpCheck, resp: Response, env: HttpEnv)
    requires resp.json.MalformedJson? && !chk.test.IsEmpty()
    ensures Conclude(m, chk, resp, env) == Conclude(m, chk, resp.(json := NotJson), env)
  {
  }

  /** Without a `test`, a JSON body that does not parse fails the check at
      once: no diagnostic data, no later step consulted. */
  lemma MalformedJsonFailsWithoutTest(m: CheckResult, chk: HttpCheck, resp: Response, env: HttpEnv)
    requires resp.json.MalformedJson? && chk.test.IsEmpty()
    ensures Conclude(m, chk, resp, env) == m.(outcome := Failed(InvalidJson(resp.json.err)))
  {
  }

  /** Once JSON and status code pass, the threshold fails the check exactly
      when it is positive and the latency strictly exceeds it. */
  lemma ThresholdBoundary(m: CheckResult, chk: HttpCheck, resp: Response, env: HttpEnv)
    requires m.outcome == Passed
    requires JsonStep(chk, resp, env).None? && env.isOK(resp.status, chk.responseCodes)
    ensures Conclude(m, chk, resp, env).outcome == Failed(ThresholdExceeded(resp.elapsedMs, chk.thresholdMillis))
        <==> chk.thresholdMillis > 0 && resp.elapsedMs > chk.thresholdMillis
  {
    ConcludeIsFirstFailure(m.(data := None), chk, resp, env);
    FirstOfFive(JsonStep(chk, resp, env), CodeStep(chk, resp, env), ThresholdStep(chk, resp), ContentStep(chk, resp), CertStep(chk, resp));
  }

  /** Once every other step passes and `maxSslExpiry` is a positive number
      of days that a 64-bit duration can hold, a missing certificate fails,
      and a present one passes exactly when it stays valid for at least that
      many days. */
  lemma CertificateRule(m: CheckResult, chk: HttpCheck, resp: Response, env: HttpEnv)
    requires m.outcome == Passed
    requires JsonStep(chk, resp, env).None? && env.isOK(resp.status, chk.responseCodes)
    requires ThresholdStep(chk, resp).None?
    requires chk.responseContent == "" || Contains(resp.body, chk.responseContent)
    requires 0 < chk.maxSslExpiry <= 106751
    ensures resp.sslAgeNanos.None? ==> Conclude(m, chk, resp, env).outcome == Failed(NoCertificate)
    ensures resp.sslAgeNanos.Some? ==>
      (Conclude(m, chk, resp, env).Pass() <==> resp.sslAgeNanos.value >= chk.maxSslExpiry * NanosPerDay)
  {
    CertWindowExact(chk.maxSslExpiry);
  }

  /** Once every other step passes, a positive `maxSslExpiry` with no
      certificate in the response fails the check, whatever the day count. */
  lemma MissingCertificateFails(m: CheckResult, chk: HttpCheck, resp: Response, env: HttpEnv)
    requires m.outcome == Passed
    requires JsonStep(chk, resp, env).None? && env.isOK(resp.status, chk.responseCodes)
    requires ThresholdStep(chk, resp).None?
    requires chk.responseContent == "" || Contains(resp.body, chk.responseContent)
    requires 0 < chk.maxSslExpiry && resp.sslAgeNanos.None?
    ensures Conclude(m, chk, resp, env).outcome == Failed(NoCertificate)
  {
  }

  /** One day beyond 106751 the 64-bit window `days * Hour * 24` wraps to a
      large negative duration. */
  lemma CertWindowWraps()
    ensures CertWindowNanos(106752) == -9223371273709551616 < 0
  {
  }

  /** The wrap in action: with `maxSslExpiry` at 106752 days, a certificate
      that expired a day ago still passes the certificate step. */
  lemma WrappedWindowPassesExpired(m: CheckResult, chk: HttpCheck, resp: Response, env: HttpEnv)
    requires m.outcome == Passed
    requires JsonStep(chk, resp, env).None? && env.isOK(resp.status, chk.responseCodes)
    requires ThresholdStep(chk, resp).None?
    requires chk.responseContent == "" || Contains(resp.body, chk.responseContent)
    requires chk.maxSslExpiry == 106752 && resp.sslAgeNanos == Some(-NanosPerDay)
    ensures Conclude(m, chk, resp, env).Pass()
  {
    CertWindowWraps();
  }

  /** Example: a 200 response in the allowed list, 50 ms, no JSON and no
      other assertion configured: the check passes with the data attached,
      and the response is counted under code label "200", class "2xx". */
  lemma ExampleAllowedCodePasses(m: CheckResult, chk: HttpCheck, resp: Response, env: HttpEnv)
    requires m.outcome == Passed && m.data.None?
    requires chk.responseCodes == [200] && chk.thresholdMillis == 0 && chk.responseContent == "" && chk.maxSslExpiry == 0
    requires resp.status == 200 && resp.elapsedMs == 50 && resp.json == NotJson
    requires env.isOK(200, [200])
    ensures Conclude(m, chk, resp, env).Pass()
    ensures Conclude(m, chk, resp, env).data.Some? && Conclude(m, chk, resp, env).data.value.code == 200
    ensures ResponseCodeMetric(resp.status, chk.url).labels["code"] == "200"
    ensures StatusCodeToClass(resp.status) == "2xx"
  {
    ItoaTwoHundred();
  }

  lemma ItoaTwoHundred()
    ensures Decimal.Itoa(200) == "200"
  {
    assert Decimal.DigitChar(2) == '2' && Decimal.DigitChar(0) == '0';
    assert Decimal.NatToString(20) == "20";
  }

  /** Example: 30 days required, 10 days left: the check fails naming both. */
  lemma ExampleCertificateExpiresSoon(m: CheckResult, chk: HttpCheck, resp: Response, env: HttpEnv)
    requires m.outcome == Passed && resp.json == NotJson && env.isOK(resp.status, chk.responseCodes)
    requires chk.thresholdMillis == 0 && chk.responseContent == "" && chk.maxSslExpiry == 30
    requires resp.sslAgeNanos == Some(10 * NanosPerDay)
    ensures Conclude(m, chk, resp, env).outcome == Failed(CertificateExpiresSoon(10 * NanosPerDay, 30))
  {
    CertWindowExact(30);
  }
}

=== FILE: paths.dfy ===
/** Slash-separated path helpers: Go's `filepath.Ext` (on a system whose
    separator is '/') and `path.Base`. */
module Paths {
  import opened Strs

  /** The position of the last `c` in `s`, or -1 when there is none. */
  function LastIndex(s: string, c: char): (i: int)
    ensures -1 <= i < |s|
    ensures i >= 0 ==> s[i] == c
    ensures forall j :: i < j < |s| ==> s[j] != c
    decreases |s|
  {
    if |s| == 0 then -1
    else if s[|s| - 1] == c then |s| - 1
    else
      var i := LastIndex(s[..|s| - 1], c);
      assert forall j :: i < j < |s| - 1 ==> s[j] == s[..|s| - 1][j];
      i
  }

  /** A position holding `c` with no `c` after it is the last one. */
  lemma LastIndexIs(s: string, c: char, k: int)
    requires -1 <= k < |s|
    requires k >= 0 ==> s[k] == c
    requires forall j :: k < j < |s| ==> s[j] != c
    ensures LastIndex(s, c) == k
  {
  }

  /** Where the final element of `p` starts: just after its last '/'. */
  function ElementStart(p: string): (n: int)
    ensures 0 <= n <= |p|
    ensures forall j :: n <= j < |p| ==> p[j] != '/'
    ensures n > 0 ==> p[n - 1] == '/'
  {
    LastIndex(p, '/') + 1
  }

  /** The final element of `p`: everything after its last '/'. */
  function LastElement(p: string): (r: string)
    ensures HasSuffix(p, r)
    ensures forall j :: 0 <= j < |r| ==> r[j] != '/'
  {
    p[ElementStart(p)..]
  }

  /** Where the extension of `p` starts: at the final '.' of the final
      element, or at the end of `p` when that element has no '.'. Go scans
      backwards from the end and stops at the first '.' or separator, so
      the '.' counts only when it comes after the last '/'. */
  function ExtStart(p: string): (n: int)
    ensures ElementStart(p) <= n <= |p|
    ensures n < |p| ==> p[n] == '.'
    ensures forall j :: n < j < |p| ==> p[j] != '.' && p[j] != '/'
    ensures n == |p| <==> forall j :: ElementStart(p) <= j < |p| ==> p[j] != '.'
  {
    var k := LastIndex(p, '/');
    var d := LastIndex(p, '.');
    if d > k then d else |p|
  }

  /** `filepath.Ext`: the suffix of `p` from the final '.' of its final
      element, or "" when that element has no '.'. */
  function Ext(p: string): (e: string)
    ensures HasSuffix(p, e)
    ensures e == "" <==> forall j :: ElementStart(p) <= j < |p| ==> p[j] != '.'
    ensures e != "" ==> e[0] == '.'
    ensures forall j :: 0 < j < |e| ==> e[j] != '.' && e[j] != '/'
  {
    var n := ExtStart(p);
    assert forall j :: 0 <= j < |p[n..]| ==> p[n..][j] == p[n + j];
    p[n..]
  }

  /** The extension of a name whose final element ends in `.x` is exactly `.x`. */
  lemma ExtOfDotted(stem: string, x: string)
    requires forall j :: 0 <= j < |x| ==> x[j] != '.' && x[j] != '/'
    ensures ExtStart(stem + "." + x) == |stem|
    ensures Ext(stem + "." + x) == "." + x
  {
    var p := stem + "." + x;
    assert p[|stem|] == '.';
    assert forall j :: |stem| < j < |p| ==> p[j] == x[j - |stem| - 1];
    LastIndexIs(p, '.', |stem|);
    assert p[|stem|..] == "." + x;
  }

  /** `path.Base`: the last element of `p` after trailing slashes are removed;
      "." for the empty path and "/" for a path of slashes only. */
  function Base(p: string): (b: string)
    ensures b != ""
    ensures b == "/" || forall j :: 0 <= j < |b| ==> b[j] != '/'
  {
    if p == "" then "." else
      var t := TrimTrailingSlashes(p);
      var last := LastElement(t);
      if last == "" then "/" else last
  }

  function TrimTrailingSlashes(p: string): (t: string)
    ensures HasPrefix(p, t)
    ensures t == "" || t[|t| - 1] != '/'
    decreases |p|
  {
    if |p| > 0 && p[|p| - 1] == '/' then TrimTrailingSlashes(p[..|p| - 1]) else p
  }

  /** A directory entry name (non-empty, no '/') is its own base name. */
  lemma BaseOfEntryName(name: string)
    requires name != "" && forall j :: 0 <= j < |name| ==> name[j] != '/'
    ensures Base(name) == name
  {
    assert TrimTrailingSlashes(name) == name;
    LastIndexIs(name, '/', -1);
  }
}

=== FILE: results.dfy ===
/** The uniform result record every checker produces. A result's outcome
    carries its failure reason, so pass flag and message are set together. */
module Results {
  import opened Wrappers
  import opened Config

  /** The configuration a result belongs to. */
  datatype CheckRef = HttpRef(http: HttpCheck) | DockerPushRef(push: DockerPushCheck)

  datatype MetricKind = Counter | Gauge

  datatype Metric = Metric(name: string, kind: MetricKind, labels: map<string, string>)

  /** A decoded JSON document. Numbers keep their source text. */
  datatype Json =
    | JNull
    | JBool(b: bool)
    | JNumber(text: string)
    | JString(s: string)
    | JArray(items: seq<Json>)
    | JObject(fields: seq<(string, Json)>)

  /** The diagnostic data attached to an HTTP result. */
  datatype ResponseData = ResponseData(
    code: int,
    headers: map<string, seq<string>>,
    elapsedMs: int,
    content: string,
    sslAgeNanos: int,
    json: Json)

  /** Why a JSONPath assertion failed. */
  datatype JsonContentError =
    | PathLookupFailed(err: string)
    | ValueMismatch(found: string, expected: string)
    | NotAString

  /** Every failure message the modelled checkers produce, with the values
      each message names. */
  datatype Reason =
    // HTTP configuration and transport errors
    | BothEndpointAndUrl
    | ConnectionLookupFailed(err: string)
    | NoUrl
    | UrlParseFailed(err: string)
    | TemplateFailed(err: string)
    | HeaderFailed(header: EnvVar, err: string)
    | BodyFailed(err: string)
    | RequestFailed(err: string)
    // HTTP assertions
    | JsonContentFailed(jsonErr: JsonContentError)
    | InvalidJson(err: string)
    | ResponseCodeInvalid(status: int, allowed: seq<int>)
    | ThresholdExceeded(elapsedMs: int, thresholdMillis: int)
    | ContentNotFound(expected: string, preview: string)
    | NoCertificate
    | CertificateExpiresSoon(ageNanos: int, maxSslExpiryDays: int)
    // registry push
    | ContextualiseFailed
    | AuthFetchFailed(err: string)
    | PushFailed(err: string)
    | InvalidPushResponse(err: string, line: string)
    | PushRejected(error: string)

  datatype Outcome = Passed | Failed(reason: Reason)

  datatype CheckResult = CheckResult(
    check: CheckRef,
    outcome: Outcome,
    durationMs: int,
    data: Option<ResponseData>,
    metrics: seq<Metric>)
  {
    predicate Pass() {
      outcome.Passed?
    }
  }

  /** The first failure of a list of steps, `None` when every step passes. */
  function FirstFailure(steps: seq<Option<Reason>>): (r: Option<Reason>)
    ensures r.None? <==> forall i :: 0 <= i < |steps| ==> steps[i].None?
    ensures r.Some? ==> exists i :: 0 <= i < |steps| && steps[i] == r && forall j :: 0 <= j < i ==> steps[j].None?
    decreases |steps|
  {
    if |steps| == 0 then None
    else if steps[0].Some? then steps[0]
    else
      var r := FirstFailure(steps[1..]);
      assert forall i :: 1 <= i < |steps| ==> steps[i] == steps[1..][i - 1];
      r
  }

  lemma FirstFailureCons(steps: seq<Option<Reason>>)
    requires |steps| > 0
    ensures FirstFailure(steps) == if steps[0].Some? then steps[0] else FirstFailure(steps[1..])
  {
  }

  function OutcomeOf(failure: Option<Reason>): Outcome {
    if failure.None? then Passed else Failed(failure.value)
  }
}

=== FILE: run_cmd.dfy ===
/** The `run` command: load canaries from configuration files, default
    their names and namespaces, run every canary's checks and drain the
    result batches into pass/fail counts and an exit status. */
module RunCmd {
  import opened Wrappers
  import opened Config
  import opened Results
  import opened Strs
  import opened Paths

  /** The file name without the last element's extension. */
  function Stem(fileName: string): (stem: string)
    ensures stem + Ext(fileName) == fileName
    ensures stem == fileName[..ExtStart(fileName)]
  {
    var n := ExtStart(fileName);
    assert fileName == fileName[..n] + fileName[n..];
    fileName[..|fileName| - |Ext(fileName)|]
  }

  /** The canary name derived from a file name: the last element's
      extension is cut off and every underscore removed. Directory
      components stay. */
  function CleanupFilename(fileName: string): (r: string)
    ensures '_' !in r
    ensures |r| <= |fileName|
    ensures forall c :: c != '_' ==> multiset(r)[c] <= multiset(fileName)[c]
  {
    var stem := Stem(fileName);
    assert multiset(fileName) == multiset(stem) + multiset(Ext(fileName));
    RemoveChar(stem, '_')
  }

  lemma StemOfDotted(stem: string, x: string)
    requires forall j :: 0 <= j < |x| ==> x[j] != '.' && x[j] != '/'
    ensures Stem(stem + "." + x) == stem
  {
    ExtOfDotted(stem, x);
    assert (stem + "." + x)[..|stem|] == stem;
  }

  /** Only the final extension goes: `a.b.yaml` names the canary `a.b`,
      `http_pass.yaml` the canary `httppass`. */
  lemma CleanupStripsLastExtension(stem: string, x: string)
    requires forall j :: 0 <= j < |x| ==> x[j] != '.' && x[j] != '/'
    ensures CleanupFilename(stem + "." + x) == RemoveChar(stem, '_')
    ensures '_' !in stem ==> CleanupFilename(stem + "." + x) == stem
  {
    StemOfDotted(stem, x);
  }

  /** A name whose last element has no dot only loses its underscores. */
  lemma CleanupWithoutExtension(fileName: string)
    requires forall j :: ElementStart(fileName) <= j < |fileName| ==> fileName[j] != '.'
    ensures CleanupFilename(fileName) == RemoveChar(fileName, '_')
  {
    assert ExtStart(fileName) == |fileName|;
    assert Stem(fileName) == fileName[..|fileName|] == fileName;
  }

  /** The defaulting in `run`: a non-empty `--namespace` flag overrides the canary's
      namespace; an empty name is derived from the file name. */
  function Normalize(c: Canary, namespaceFlag: string, file: string): (r: Canary)
    ensures r.spec == c.spec
    ensures c.name != "" ==> r.name == c.name
    ensures namespaceFlag == "" ==> r.namespace == c.namespace
  {
    var c := if namespaceFlag != "" then c.(namespace := namespaceFlag) else c;
    if c.name == "" then c.(name := CleanupFilename(file)) else c
  }

  /** Defaulting twice is defaulting once, and the flag always wins. */
  lemma NormalizeIdempotent(c: Canary, namespaceFlag: string, file: string)
    ensures Normalize(Normalize(c, namespaceFlag, file), namespaceFlag, file) == Normalize(c, namespaceFlag, file)
    ensures namespaceFlag != "" ==> Normalize(c, namespaceFlag, file).namespace == namespaceFlag
    ensures c.name == "" ==> Normalize(c, namespaceFlag, file).name == CleanupFilename(file)
  {
  }

  /** The canaries scheduled from the files, in file order; a file that
      does not parse contributes nothing. */
  function Gather(files: seq<string>, parse: string -> Result<seq<Canary>, string>, namespaceFlag: string): seq<Canary>
    decreases |files|
  {
    if |files| == 0 then []
    else
      var rest := Gather(files[1..], parse, namespaceFlag);
      match parse(files[0])
      case Failure(_) => rest
      case Success(cs) => seq(|cs|, k requires 0 <= k < |cs| => Normalize(cs[k], namespaceFlag, files[0])) + rest
  }

  lemma {:induction false} GatherAppend(a: seq<string>, b: seq<string>, parse: string -> Result<seq<Canary>, string>, ns: string)
    ensures Gather(a + b, parse, ns) == Gather(a, parse, ns) + Gather(b, parse, ns)
    decreases |a|
  {
    if |a| == 0 {
      assert a + b == b;
    } else {
      assert (a + b)[0] == a[0];
      assert (a + b)[1..] == a[1..] + b;
      GatherAppend(a[1..], b, parse, ns);
    }
  }

  /** A file that does not parse is skipped: the other files' canaries are
      exactly those scheduled without it. */
  lemma UnparsableFileSkipped(a: seq<string>, f: string, b: seq<string>, parse: string -> Result<seq<Canary>, string>, ns: string)
    requires parse(f).Failure?
    ensures Gather(a + [f] + b, parse, ns) == Gather(a + b, parse, ns)
  {
    GatherAppend(a + [f], b, parse, ns);
    GatherAppend(a, [f], parse, ns);
    GatherAppend(a, b, parse, ns);
    assert [f][1..] == [];
  }

  /** Every canary of every file that parses is scheduled, defaulted. */
  lemma {:induction false} GatherSchedulesAll(files: seq<string>, parse: string -> Result<seq<Canary>, string>, ns: string, i: int, k: int)
    requires 0 <= i < |files| && parse(files[i]).Success? && 0 <= k < |parse(files[i]).value|
    ensures Normalize(parse(files[i]).value[k], ns, files[i]) in Gather(files, parse, ns)
    decreases |files|
  {
    if i > 0 {
      assert files[1..][i - 1] == files[i];
      GatherSchedulesAll(files[1..], parse, ns, i - 1, k);
    } else {
      var cs := parse(files[0]).value;
      var front := seq(|cs|, j requires 0 <= j < |cs| => Normalize(cs[j], ns, files[0]));
      assert front[k] == (front + Gather(files[1..], parse, ns))[k];
    }
  }

  /** What loading produces: `run` treats an empty file list as fatal. */
  datatype Plan = NoCanaryFiles | Scheduled(canaries: seq<Canary>)

  function Load(files: seq<string>, parse: string -> Result<seq<Canary>, string>, namespaceFlag: string): (p: Plan)
    ensures p.NoCanaryFiles? <==> |files| == 0
    ensures p.Scheduled? ==> forall c :: c in p.canaries ==> (namespaceFlag != "" ==> c.namespace == namespaceFlag)
  {
    if |files| == 0 then NoCanaryFiles else Scheduled(GatherDefaulted(files, parse, namespaceFlag))
  }

  function GatherDefaulted(files: seq<string>, parse: string -> Result<seq<Canary>, string>, ns: string): (cs: seq<Canary>)
    ensures cs == Gather(files, parse, ns)
    ensures ns != "" ==> forall c :: c in cs ==> c.namespace == ns
  {
    GatherNamespace(files, parse, ns);
    Gather(files, parse, ns)
  }

  lemma {:induction false} GatherNamespace(files: seq<string>, parse: string -> Result<seq<Canary>, string>, ns: string)
    ensures ns != "" ==> forall c :: c in Gather(files, parse, ns) ==> c.namespace == ns
    decreases |files|
  {
    if |files| > 0 {
      GatherNamespace(files[1..], parse, ns);
    }
  }

  /** All results of a sequence of batches, batch after batch. */
  function Flatten(batches: seq<seq<CheckResult>>): seq<CheckResult>
    decreases |batches|
  {
    if |batches| == 0 then [] else batches[0] + Flatten(batches[1..])
  }

  function CountFailed(rs: seq<CheckResult>): nat
    decreases |rs|
  {
    if |rs| == 0 then 0 else (if rs[0].Pass() then 0 else 1) + CountFailed(rs[1..])
  }

  lemma {:induction false} CountFailedAppend(a: seq<CheckResult>, b: seq<CheckResult>)
    ensures CountFailed(a + b) == CountFailed(a) + CountFailed(b)
    decreases |a|
  {
    if |a| == 0 {
      assert a + b == b;
    } else {
      assert (a + b)[0] == a[0];
      assert (a + b)[1..] == a[1..] + b;
      CountFailedAppend(a[1..], b);
    }
  }

  /** No failures counted exactly when every result passed. */
  lemma {:induction false} CountFailedZero(rs: seq<CheckResult>)
    ensures CountFailed(rs) == 0 <==> forall i :: 0 <= i < |rs| ==> rs[i].Pass()
    ensures CountFailed(rs) <= |rs|
    decreases |rs|
  {
    if |rs| > 0 {
      CountFailedZero(rs[1..]);
      assert forall i :: 1 <= i < |rs| ==> rs[i] == rs[1..][i - 1];
    }
  }

  lemma {:induction false} FlattenAppend(a: seq<seq<CheckResult>>, b: seq<seq<CheckResult>>)
    ensures Flatten(a + b) == Flatten(a) + Flatten(b)
    decreases |a|
  {
    if |a| == 0 {
      assert a + b == b;
    } else {
      assert (a + b)[0] == a[0];
      assert (a + b)[1..] == a[1..] + b;
      FlattenAppend(a[1..], b);
    }
  }

  /** The drain loop of `run`, sequentially: every result of every batch is counted
      once as passed or failed and appended, batch order and order inside
      each batch kept. */
  method Drain(batches: seq<seq<CheckResult>>) returns (results: seq<CheckResult>, passed: nat, failed: nat)
    ensures results == Flatten(batches)
    ensures passed + failed == |results|
    ensures failed == CountFailed(results)
  {
    results, passed, failed := [], 0, 0;
    var i := 0;
    while i < |batches|
      invariant 0 <= i <= |batches|
      invariant results == Flatten(batches[..i])
      invariant passed + failed == |results| && failed == CountFailed(results)
    {
      var item := batches[i];
      var j := 0;
      while j < |item|
        invariant 0 <= j <= |item|
        invariant results == Flatten(batches[..i]) + item[..j]
        invariant passed + failed == |results| && failed == CountFailed(results)
      {
        var result := item[j];
        if !result.Pass() {
          failed := failed + 1;
        } else {
          passed := passed + 1;
        }
        CountFailedAppend(results, [result]);
        assert CountFailed([result]) == (if result.Pass() then 0 else 1);
        results := results + [result];
        assert item[..j + 1] == item[..j] + [result];
        j := j + 1;
      }
      assert item[..j] == item;
      FlattenAppend(batches[..i], [item]);
      assert batches[..i + 1] == batches[..i] + [item];
      assert Flatten([item]) == item by { assert [item][1..] == []; }
      i := i + 1;
    }
    assert batches[..i] == batches;
  }

  /** The batches can arrive in any order: the number of results and the
      number of failures are the same for every rearrangement. */
  lemma {:induction false} CountsIndependentOfArrival(batches: seq<seq<CheckResult>>, arrived: seq<seq<CheckResult>>)
    requires multiset(batches) == multiset(arrived)
    ensures |Flatten(batches)| == |Flatten(arrived)|
    ensures CountFailed(Flatten(batches)) == CountFailed(Flatten(arrived))
    decreases |batches|
  {
    if |batches| == 0 {
      assert |arrived| == |multiset(arrived)| == 0;
    } else {
      var x := batches[0];
      assert x in multiset(arrived);
      var k :| 0 <= k < |arrived| && arrived[k] == x;
      var rest := arrived[..k] + arrived[k + 1..];
      assert arrived == arrived[..k] + [x] + arrived[k + 1..];
      assert batches == [x] + batches[1..];
      assert multiset(arrived) == multiset(arrived[..k]) + multiset{x} + multiset(arrived[k + 1..]);
      assert multiset(rest) == multiset(arrived) - multiset{x};
      assert multiset(batches[1..]) == multiset(batches) - multiset{x};
      CountsIndependentOfArrival(batches[1..], rest);
      FlattenAppend(arrived[..k] + [x], arrived[k + 1..]);
      FlattenAppend(arrived[..k], [x]);
      FlattenAppend(arrived[..k], arrived[k + 1..]);
      assert Flatten([x]) == x by { assert [x][1..] == []; }
      CountFailedAppend(Flatten(arrived[..k]) + x, Flatten(arrived[k + 1..]));
      CountFailedAppend(Flatten(arrived[..k]), x);
      CountFailedAppend(Flatten(arrived[..k]), Flatten(arrived[k + 1..]));
      CountFailedAppend(x, Flatten(batches[1..]));
    }
  }

  /** The end of `run`: the process exits with status 1 when anything failed. */
  function ExitCode(failed: nat): (code: int)
    ensures code == 0 || code == 1
  {
    if failed > 0 then 1 else 0
  }

  datatype RunOutcome = Fatal | Finished(results: seq<CheckResult>, passed: nat, failed: nat, exitCode: int)

  /** The whole command, with each canary's batch in launch order. */
  method Execute(files: seq<string>, parse: string -> Result<seq<Canary>, string>, namespaceFlag: string,
                 runChecks: Canary -> seq<CheckResult>)
    returns (outcome: RunOutcome)
    ensures outcome.Fatal? <==> |files| == 0
    ensures outcome.Finished? ==> outcome.passed + outcome.failed == |outcome.results|
    ensures outcome.Finished? ==>
      (outcome.exitCode == 1 <==> exists i :: 0 <= i < |outcome.results| && !outcome.results[i].Pass())
    ensures outcome.Finished? ==> (outcome.exitCode == 0 <==> forall i :: 0 <= i < |outcome.results| ==> outcome.results[i].Pass())
    ensures outcome.Finished? ==>
      var cs := Gather(files, parse, namespaceFlag);
      outcome.results == Flatten(seq(|cs|, k requires 0 <= k < |cs| => runChecks(cs[k])))
  {
    match Load(files, parse, namespaceFlag)
    case NoCanaryFiles =>
      return Fatal;
    case Scheduled(cs) =>
      var batches := seq(|cs|, k requires 0 <= k < |cs| => runChecks(cs[k]));
      var results, passed, failed := Drain(batches);
      CountFailedZero(results);
      return Finished(results, passed, failed, ExitCode(failed));
  }
}

=== FILE: strs.dfy ===
/** The parts of Go's `strings` package that the checks rely on, over strings
    of Unicode code points (Go works on UTF-8 bytes; for valid UTF-8 the two
    views agree on every function below). */
module Strs {

  /** `strings.HasPrefix` */
  predicate HasPrefix(s: string, prefix: string) {
    |prefix| <= |s| && s[..|prefix|] == prefix
  }

  /** `strings.HasSuffix` */
  predicate HasSuffix(s: string, suffix: string) {
    |suffix| <= |s| && s[|s| - |suffix|..] == suffix
  }

  /** `sub` occurs in `s` starting at index `i`. */
  ghost predicate OccursAt(s: string, sub: string, i: int) {
    0 <= i && i + |sub| <= |s| && s[i..i + |sub|] == sub
  }

  /** `strings.Contains`: some window of `s` equals `sub`. */
  function Contains(s: string, sub: string): (b: bool)
    ensures b <==> exists i :: OccursAt(s, sub, i)
    decreases |s|
  {
    if |sub| > |s| then
      false
    else if s[..|sub|] == sub then
      assert OccursAt(s, sub, 0);
      true
    else
      var b := Contains(s[1..], sub);
      assert forall i :: OccursAt(s[1..], sub, i) ==> OccursAt(s, sub, i + 1);
      assert forall i :: OccursAt(s, sub, i) ==> i == 0 || OccursAt(s[1..], sub, i - 1);
      b
  }

  /** `strings.Replace(s, string(c), "", -1)`: every occurrence of `c` deleted,
      the other characters kept in order. */
  function RemoveChar(s: string, c: char): (r: string)
    ensures c !in r
    ensures forall x :: x != c ==> multiset(r)[x] == multiset(s)[x]
    ensures c !in s ==> r == s
    ensures |r| == |s| - multiset(s)[c]
    decreases |s|
  {
    if |s| == 0 then ""
    else
      assert s == [s[0]] + s[1..];
      if s[0] == c then RemoveChar(s[1..], c) else [s[0]] + RemoveChar(s[1..], c)
  }

  /** Deleting a character commutes with concatenation. */
  lemma {:induction false} RemoveCharAppend(a: string, b: string, c: char)
    ensures RemoveChar(a + b, c) == RemoveChar(a, c) + RemoveChar(b, c)
    decreases |a|
  {
    if |a| == 0 {
      assert a + b == b;
    } else {
      assert (a + b)[1..] == a[1..] + b;
      RemoveCharAppend(a[1..], b, c);
    }
  }

  /** `strings.Join(parts, string(sep))` */
  function Join(parts: seq<string>, sep: char): string
    decreases |parts|
  {
    if |parts| == 0 then ""
    else if |parts| == 1 then parts[0]
    else parts[0] + [sep] + Join(parts[1..], sep)
  }

  /** `strings.Split(s, string(sep))`: the pieces between separators, empty
      pieces included; a string without `sep` gives one piece. */
  function Split(s: string, sep: char): (parts: seq<string>)
    ensures |parts| >= 1
    decreases |s|
  {
    if |s| == 0 then [""]
    else
      var rest := Split(s[1..], sep);
      if s[0] == sep then [""] + rest else [[s[0]] + rest[0]] + rest[1..]
  }

  /** There is one piece more than there are separators, and no piece
      holds a separator. */
  lemma {:induction false} SplitPieces(s: string, sep: char)
    ensures |Split(s, sep)| == multiset(s)[sep] + 1
    ensures forall i :: 0 <= i < |Split(s, sep)| ==> sep !in Split(s, sep)[i]
    decreases |s|
  {
    if |s| > 0 {
      SplitPieces(s[1..], sep);
      assert s == [s[0]] + s[1..];
      var rest := Split(s[1..], sep);
      var parts := Split(s, sep);
      if s[0] != sep {
        assert parts[0] == [s[0]] + rest[0];
        assert forall i :: 1 <= i < |parts| ==> parts[i] == rest[i];
      } else {
        assert forall i :: 1 <= i < |parts| ==> parts[i] == rest[i - 1];
      }
    }
  }

  /** Joining the pieces with the separator gives the string back. */
  lemma {:induction false} JoinSplit(s: string, sep: char)
    ensures Join(Split(s, sep), sep) == s
    decreases |s|
  {
    if |s| > 0 {
      JoinSplit(s[1..], sep);
      var rest := Split(s[1..], sep);
      assert s == [s[0]] + s[1..];
      if s[0] == sep {
        assert ([""] + rest)[1..] == rest;
      } else {
        var parts := [[s[0]] + rest[0]] + rest[1..];
        if |rest| == 1 {
          assert Join(rest, sep) == rest[0];
        } else {
          assert parts[1..] == rest[1..];
          assert Join(rest, sep) == rest[0] + [sep] + Join(rest[1..], sep);
        }
      }
    }
  }

  /** Splitting a joined list gives the list back when no piece holds the
      separator: `Split` and `Join` are inverse in both directions. */
  lemma {:induction false} SplitJoin(parts: seq<string>, sep: char)
    requires |parts| >= 1
    requires forall i :: 0 <= i < |parts| ==> sep !in parts[i]
    ensures Split(Join(parts, sep), sep) == parts
    decreases |parts|
  {
    if |parts| == 1 {
      SplitNoSep(parts[0], sep);
    } else {
      SplitJoin(parts[1..], sep);
      SplitPiece(parts[0], sep, Join(parts[1..], sep));
      assert parts == [parts[0]] + parts[1..];
    }
  }

  lemma {:induction false} SplitNoSep(a: string, sep: char)
    requires sep !in a
    ensures Split(a, sep) == [a]
    decreases |a|
  {
    if |a| > 0 {
      SplitNoSep(a[1..], sep);
      assert [a[0]] + a[1..] == a;
    }
  }

  lemma {:induction false} SplitPiece(a: string, sep: char, rest: string)
    requires sep !in a
    ensures Split(a + [sep] + rest, sep) == [a] + Split(rest, sep)
    decreases |a|
  {
    if |a| == 0 {
      assert a + [sep] + rest == [sep] + rest;
      assert ([sep] + rest)[1..] == rest;
    } else {
      var s := a + [sep] + rest;
      assert s[0] == a[0] && s[0] != sep;
      assert s[1..] == a[1..] + [sep] + rest;
      SplitPiece(a[1..], sep, rest);
      var tail := Split(s[1..], sep);
      assert tail[0] == a[1..];
      assert tail[1..] == Split(rest, sep);
      assert [a[0]] + a[1..] == a;
    }
  }

  /** `unicode.IsSpace`: the Unicode White_Space characters. */
  predicate IsSpace(c: char) {
    || c == '\t' || c == '\n' || c == '\U{000B}' || c == '\U{000C}' || c == '\r' || c == ' '
    || c == '\U{0085}' || c == '\U{00A0}' || c == '\U{1680}'
    || ('\U{2000}' <= c <= '\U{200A}')
    || c == '\U{2028}' || c == '\U{2029}' || c == '\U{202F}' || c == '\U{205F}' || c == '\U{3000}'
  }

  /** Every character of `s` is white space (the empty string included). */
  predicate IsBlank(s: string) {
    forall i :: 0 <= i < |s| ==> IsSpace(s[i])
  }

  /** `strings.TrimLeft(s, whitespace)`: the longest suffix of `s` that does
      not start with white space. */
  function TrimLeftSpace(s: string): (r: string)
    ensures HasSuffix(s, r)
    ensures forall i :: 0 <= i < |s| - |r| ==> IsSpace(s[i])
    ensures |r| > 0 ==> !IsSpace(r[0])
    decreases |s|
  {
    if |s| > 0 && IsSpace(s[0]) then
      var r := TrimLeftSpace(s[1..]);
      assert forall i :: 1 <= i < |s| - |r| ==> s[i] == s[1..][i - 1];
      r
    else s
  }

  /** `strings.TrimRight(s, whitespace)`: the longest prefix of `s` that does
      not end with white space. */
  function TrimRightSpace(s: string): (r: string)
    ensures HasPrefix(s, r)
    ensures forall i :: |r| <= i < |s| ==> IsSpace(s[i])
    ensures |r| > 0 ==> !IsSpace(r[|r| - 1])
    decreases |s|
  {
    if |s| > 0 && IsSpace(s[|s| - 1]) then
      var r := TrimRightSpace(s[..|s| - 1]);
      assert forall i :: |r| <= i < |s| - 1 ==> s[i] == s[..|s| - 1][i];
      r
    else s
  }

  /** `strings.TrimSpace` */
  function TrimSpace(s: string): string {
    TrimRightSpace(TrimLeftSpace(s))
  }

  /** `strings.TrimSpace(s) == ""` holds exactly for the blank strings. */
  lemma TrimSpaceEmptyIffBlank(s: string)
    ensures TrimSpace(s) == "" <==> IsBlank(s)
  {
  }
}

=== FILE: wrappers.dfy ===
/** Failure-carrying values used wherever the Go code returns `(value, error)`
    or a nil-able pointer. */
module Wrappers {

  /** A value that may be absent (a Go nil pointer or a nil error). */
  datatype Option<+T> = None | Some(value: T)

  /** Either a value or the error that the Go code returned in its place. */
  datatype Result<+T, +E> = Success(value: T) | Failure(error: E) {
    predicate IsFailure() {
      Failure?
    }
  }
}
